=== FILE: README.md ===
# Tabular view state of the data dashboard

This project is a Dafny model of the part of the data-analysis dashboard that
decides what the user sees of an uploaded sheet. It covers:

- the rows (`DataRow` records from the keys the header row names to a string, number, `null` or `undefined` cell);
- the free-text search over every cell of a row;
- the column sort, with its toggle between ascending and descending and its rule that missing values go last;
- the pagination of the table view (15 rows a page) and of the product grid (12 cards a page);
- the product card, whose column roles are guessed from the column names, and its stock badge;
- the dashboard's own state: the analysis, the chat transcript, the action items, the view settings and the agent-context snapshot;
- the CSV-like sample of the rows that accompanies an analysis request (`formatDataForPrompt`).

Modules, one per concern:

- `Outcomes`: `Option` and `Result`.
- `JsValues`: cells and rows, plus the JavaScript conversions the views rely on: `String(value)`, ASCII `toLowerCase`, `includes`, `trim` and `Number`.
- `RowFilter`: `filteredData`.
- `RowSort`: the comparator, the insertion sort that stands for `Array.prototype.sort` (an in-place array method proved equal to a specification function), and the toggle of the sort configuration.
- `Pagination`: `Math.ceil(n / size)` and `slice((page - 1) * size, …)`, shared by both views.
- `DataTableView`: the table as a class with its own search text, sort and page.
- `ProductGridView`: column-role guessing, cards, stock badges, and the grid as a class with its page.
- `PromptFormat`: the sample text. Two readers are its partners: `Split`, which cuts at a separator, and `ParseLine`, which cuts at commas outside double quotes. Round trips are proved against them.
- `AppTypes`: the analysis result, chat message, action item and context records.
- `DashboardState`: the action-item, transcript and spreadsheet-row operations, and the `Dashboard` class holding the state with a handler per user action.

The remote analysis and chat calls are not modelled. Each handler receives the call's outcome as a parameter. The action item's id (`Date.now()`) is a parameter as well.

The model follows the code where it departs from the documented intent:

- The number of pages for zero rows is 0, not 1.
- The table view keeps its own search text and sort. It ignores the dashboard's `filter`, `sortConfig` and `onSortChange` props, which its props interface does not declare.
- Rows whose sort key is `null` or `undefined` go last in both directions and keep their relative order (`RowSort.SortedMissingRows`).
- The header row is kept as the sheet reader returns it. A blank header cell is a hole: it names no key in the records and is written as an empty field in the sample.
- The product grid's column lookup throws on a header cell that is not a string; see "## Findings".

## Model

| member | source | states |
|---|---|---|
| JsValues.KeyValue | components/DataTable.tsx:34-35 | reading a key the row lacks gives `undefined`, a present key its cell |
| JsValues.ToJsString | components/DataTable.tsx:25 | `String(value)`: strings unchanged, `null` → "null", `undefined` → "undefined" |
| JsValues.HeaderKey | components/Dashboard.tsx:92-94 | a hole in the header row names no key; any other header cell names its `String` form |
| JsValues.NumberHeaderKey | components/Dashboard.tsx:94 | a number header names the same key as the header spelled with its digits |
| JsValues.IntToString | services/geminiService.ts:19 | an integer is written as an optional minus sign and digits, with digits only exactly for non-negative numbers |
| JsValues.ToLower | components/DataTable.tsx:25 | lower-casing keeps the length, turns each letter A to Z into its lower-case letter and leaves every other character alone |
| JsValues.ToLowerIgnoresCase | components/DataTable.tsx:25 | two texts lower-case to the same text exactly when they differ only in the case of their letters |
| JsValues.Includes | components/DataTable.tsx:25 | a prefix is included, and an included text is no longer than the string |
| JsValues.IncludesIffOccurs | components/DataTable.tsx:25 | `s.includes(q)` holds exactly when `q` occurs in `s` at some index |
| JsValues.TrimStart | components/Dashboard.tsx:165 | removes exactly the leading ECMAScript whitespace: the removed prefix is blank and the rest starts with a non-space |
| JsValues.TrimEnd | components/Dashboard.tsx:165 | removes exactly the trailing whitespace: the removed suffix is blank and the rest ends with a non-space |
| JsValues.Trim | components/Dashboard.tsx:165 | the trimmed text is the slice of the input between a blank prefix and a blank suffix, with no whitespace at either end |
| JsValues.TrimIdempotent | components/Dashboard.tsx:165 | trimming twice is trimming once |
| JsValues.TrimEmptyIffBlank | components/Dashboard.tsx:165 | `!text.trim()` holds exactly for strings made only of whitespace (both directions) |
| JsValues.TrimNoEdgeWhitespace | components/Dashboard.tsx:143 | trim leaves a string with no whitespace at either end unchanged |
| JsValues.StringToNumber | components/ProductGrid.tsx:51 | `Number(text)`: blank text is 0, digits with an optional `-` or `+` sign are that integer, and the result is NaN exactly when the trimmed text is neither blank nor such an integer |
| JsValues.ToNumber | components/ProductGrid.tsx:51 | `Number(cell)`: a number is itself, `null` is 0, `undefined` is NaN |
| JsValues.StringCellNumber | components/ProductGrid.tsx:51 | `Number(cell)` of a string cell converts its text as `StringToNumber` says |
| JsValues.NumberOfIntToString | components/ProductGrid.tsx:53 | `Number(String(n)) == n` for every integer: the badge text reads back as its value |
| JsValues.DigitsRoundTrip | components/ProductGrid.tsx:53 | the decimal digits of a natural number read back as that number |
| RowFilter.RowMatches | components/DataTable.tsx:24-26 | only a row with some key can match; the empty query matches exactly the rows that have a key |
| RowFilter.KeepIfSound | components/DataTable.tsx:23 | `filter` keeps only elements of the input that the callback accepts |
| RowFilter.KeepIfAppend | components/DataTable.tsx:23 | `filter` distributes over concatenation, so it keeps the order |
| RowFilter.KeepIfCount | components/DataTable.tsx:23 | every copy of an accepted element survives and no copy of a rejected one |
| RowFilter.Filter | components/DataTable.tsx:21-28 | the empty query returns the rows unchanged; otherwise every result row is an input row that matches, and there are no more rows than before |
| RowFilter.FilterAppend | components/DataTable.tsx:23-27 | rows are judged one by one and keep their relative order |
| RowFilter.FilterSingle | components/DataTable.tsx:22-27 | one row is kept exactly when the query is empty or the row matches |
| RowFilter.FilterCount | components/Dashboard.tsx:185-192 | the result has, of each row, all its copies when it matches (or the query is empty) and none otherwise |
| RowFilter.FilterKeepsMatches | components/DataTable.tsx:23-27 | every matching input row is in the result |
| RowFilter.NullCellMatchesNul | components/DataTable.tsx:25 | a `null` cell is searched as the text "null", so the query "nul" finds its row |
| RowFilter.EmptyRowKeptOnlyByEmptyQuery | components/DataTable.tsx:22-24 | a row with no keys survives only the empty query |
| RowFilter.EmptyQueryShortcut | components/DataTable.tsx:22-26 | the early return for the empty query keeps the same rows as the match test when no row is an empty record |
| RowFilter.QueryCaseIgnored | components/DataTable.tsx:23-27 | queries that differ only in letter case find exactly the same rows |
| RowFilter.UpperQueryFindsLower | components/DataTable.tsx:23-27 | the query "APPLE" finds a row holding "apple" |
| RowSort.StrLessIrreflexive | components/DataTable.tsx:40 | no string is `<` itself |
| RowSort.StrLessTransitive | components/DataTable.tsx:40 | string `<` is transitive |
| RowSort.StrLessTotal | components/DataTable.tsx:40-43 | two different strings are ordered one way or the other |
| RowSort.CellLessAsymmetric | components/DataTable.tsx:40-43 | on cells of one kind, `a < b` and `b < a` never both hold |
| RowSort.Compare | components/DataTable.tsx:33-47 | answers -1, 0 or 1: 1 when the first value is missing, -1 when only the second is, and 0 only for two present values |
| RowSort.CompareAntisymmetric | components/DataTable.tsx:37-46 | unless both values are missing, swapping the arguments negates the answer |
| RowSort.CompareMissingPair | components/DataTable.tsx:37 | for two missing values the answer is 1 in both argument orders |
| RowSort.CompareAgreesWithOrder | components/DataTable.tsx:40-46 | on present cells of one kind, a later row is not ranked before an earlier one exactly when the pair is in the direction's order |
| RowSort.InOrderTotal | components/DataTable.tsx:40-46 | any two cells of one kind are in order one way round |
| RowSort.InOrderTransitive | components/DataTable.tsx:40-46 | the direction's order is transitive on cells of one kind |
| RowSort.Insert | components/DataTable.tsx:33 | one insertion pass adds exactly one row |
| RowSort.InsertPermutes | components/DataTable.tsx:33 | an insertion pass adds the row and loses none (multisets) |
| RowSort.InsertMembers | components/DataTable.tsx:33 | the rows after a pass are the inserted row and the earlier rows |
| RowSort.InsertionSorted | components/DataTable.tsx:33-47 | sorting keeps the number of rows |
| RowSort.InsertionSortedPermutes | components/DataTable.tsx:33-47 | the sorted rows are a permutation of the input |
| RowSort.SortSpec | components/DataTable.tsx:30-50 | without a sort configuration the rows are returned as they are; with one, the same number of rows |
| RowSort.SortSpecPermutes | components/DataTable.tsx:30-50 | `sortedData` is a permutation of `filteredData` |
| RowSort.InsertKeepsMissingLast | components/DataTable.tsx:37-38 | an insertion pass keeps the `null`/`undefined` key values behind all present ones |
| RowSort.InsertKeepsOrder | components/DataTable.tsx:40-45 | an insertion pass keeps a single-kind column in the direction's order |
| RowSort.SortedMissingLast | components/DataTable.tsx:37-38 | after sorting, no row with a missing key value comes before a row with a present one, in either direction |
| RowSort.SortedInOrder | components/DataTable.tsx:40-45 | when the present key values are all numbers or all strings, the sorted rows are non-decreasing (ascending) or non-increasing (descending) |
| RowSort.SortedFixed | components/DataTable.tsx:33-47 | rows already sorted (missing values last, in order, one kind) are left exactly where they are |
| RowSort.InsertNoDescent | components/DataTable.tsx:33-47 | after an insertion pass no row is ranked by the comparator strictly before the row ahead of it |
| RowSort.SortedNoDescent | components/DataTable.tsx:33-47 | for every input, no sorted row is ranked by the comparator strictly before the row ahead of it |
| RowSort.NoDescentFixed | components/DataTable.tsx:33-47 | rows in which no row ranks strictly before its predecessor are left exactly where they are |
| RowSort.SortIdempotent | components/DataTable.tsx:33-47 | sorting the sorted rows again changes nothing, for every column, mixed kinds included |
| RowSort.MissingRows | components/DataTable.tsx:37 | the rows with a missing key value, in input order: no more rows than the input, each one missing |
| RowSort.InsertMissingRows | components/DataTable.tsx:37 | an insertion pass appends `x` to the missing rows when `x` is missing and leaves them unchanged otherwise |
| RowSort.SortedMissingRows | components/DataTable.tsx:37 | for every input, the missing-key rows of the sorted output, in order, are those of the input in input order |
| RowSort.AllMissingUnchanged | components/DataTable.tsx:37 | rows whose key values are all missing keep their input order |
| RowSort.InsertLast | components/DataTable.tsx:33 | the in-place pass turns the array prefix into the insertion of the next element and leaves the rest alone |
| RowSort.InsertionSortInPlace | components/DataTable.tsx:33-47 | the array is sorted in place to exactly the specification's order |
| RowSort.SortRows | components/DataTable.tsx:30-50 | `sortedData` equals the specification. It is a permutation, unchanged without a configuration, has missing values last, and is ordered for single-kind columns |
| RowSort.NextSortConfig | components/DataTable.tsx:60-65 | the new key is the clicked column; it is descending exactly when the same column was ascending |
| RowSort.SortToggleAlternates | components/Dashboard.tsx:177-183 | two clicks on the same column end in opposite directions |
| Pagination.TotalPages | components/DataTable.tsx:52 | the fewest pages that hold all rows: enough pages, one fewer would not do, and 0 exactly for no rows |
| Pagination.TotalPagesIsCeiling | components/DataTable.tsx:52 | the page count is `ceil(n / size)`, i.e. `(n + size - 1) / size` |
| Pagination.TimesIsProduct | components/DataTable.tsx:55 | the repeated-addition product used for page offsets is `k * size` |
| Pagination.TimesMonotone | components/DataTable.tsx:55-56 | later pages start no earlier |
| Pagination.SliceIndex | components/DataTable.tsx:57 | a `slice` index is clamped to the length, counting from the end when negative |
| Pagination.Slice | components/DataTable.tsx:57 | `slice(start, end)` is the elements between the clamped indices, or none |
| Pagination.PageOf | components/DataTable.tsx:54-58 | a page holds at most `size` rows |
| Pagination.PageOfSlice | components/ProductGrid.tsx:72-76 | page `p` is the rows from `(p-1)*size` to `p*size`, cut at the end |
| Pagination.PageOfNonEmpty | components/DataTable.tsx:69-73 | every page from 1 to `totalPages` has a row |
| Pagination.PageOfPastEnd | components/DataTable.tsx:69-73 | a page past `totalPages` is empty |
| Pagination.PagesUpToPrefix | components/DataTable.tsx:54-58 | the first `k` pages are the first `k*size` rows |
| Pagination.PagesCoverRows | components/DataTable.tsx:52-58 | pages 1 to `totalPages` together hold every row once, in order |
| Pagination.PageOfIndex | components/DataTable.tsx:52-58 | row `i` is on page `i / size + 1` at position `i % size`, and that page exists |
| Pagination.PageOfPosition | components/DataTable.tsx:54-58 | the row at offset `q` after `p` full pages is on page `p + 1` at position `q` |
| Pagination.DivFacts | components/DataTable.tsx:52 | a row index splits into whole pages and a remainder below the page size |
| DataTableView.DataTable.TotalPages | components/DataTable.tsx:52 | 0 exactly when no row passes the search; enough pages for the searched rows, and one fewer would not do |
| DataTableView.DataTable.constructor | components/DataTable.tsx:17-19 | a new table has no sort, page 1 and an empty search |
| DataTableView.DataTable.SortedData | components/DataTable.tsx:30-50 | the searched rows, sorted as specified: a permutation with missing values last, in order for single-kind columns |
| DataTableView.DataTable.PaginatedData | components/DataTable.tsx:54-58 | the current page of the sorted rows, at most 15, never empty while some row passes the search |
| DataTableView.DataTable.RequestSort | components/DataTable.tsx:60-67 | toggles the sort on the column and returns to page 1; the page stays valid |
| DataTableView.DataTable.HandlePageChange | components/DataTable.tsx:69-73 | moves to an existing page, otherwise stays; the page never points past the last page |
| DataTableView.DataTable.ChangeFilter | components/DataTable.tsx:84-87 | typing sets the search text and returns to page 1 |
| ProductGridView.NormalizeHeader | components/ProductGrid.tsx:20 | lower-cases the column name and turns each underscore into a space, keeping its length |
| ProductGridView.FindKey | components/ProductGrid.tsx:19-20 | none exactly when no header key matches a keyword; otherwise the key of the first matching header cell, holes passed over |
| ProductGridView.FindKeyAsWritten | components/ProductGrid.tsx:19-20 | throws only when a header cell that is not a string comes before the first match; never for all-string headers; when it returns, it agrees with `FindKey` |
| ProductGridView.NonStringHeaderThrows | components/ProductGrid.tsx:19-20 | a number or a blank cell ahead of the name column makes the lookup throw, where `FindKey` finds the column |
| ProductGridView.FoundKeyNonEmpty | components/ProductGrid.tsx:29-33 | a found column is never the empty (falsy) name when the keywords are non-empty |
| ProductGridView.FieldOf | components/ProductGrid.tsx:29-33 | the row's value under a found column, the fallback when there is none |
| ProductGridView.CardOf | components/ProductGrid.tsx:22-33 | with no name column the card reads "Unnamed Product"; with no stock column there is no stock |
| ProductGridView.CardName | components/ProductGrid.tsx:24-30 | the card's name is the value under the first name-like column, or "Unnamed Product" |
| ProductGridView.Truthy | components/ProductGrid.tsx:46 | exactly `""`, `0`, `null` and `undefined` are falsy |
| ProductGridView.ShowsImage | components/ProductGrid.tsx:38 | the picture is shown exactly for a string starting with "http" or "data:"; the truthiness test adds nothing |
| ProductGridView.ShowsCategory | components/ProductGrid.tsx:46 | the category line shows exactly when the category is present and neither an empty string nor 0 |
| ProductGridView.MissingColumnsHidden | components/ProductGrid.tsx:22-46 | with no image column there is no picture, with no category column no category line |
| ProductGridView.StockBadgeOf | components/ProductGrid.tsx:51-53 | no badge exactly for `null` or a non-number; otherwise green above 10, yellow in 1..10, red at or below 0 |
| ProductGridView.StockBadgeConsistent | components/ProductGrid.tsx:52-53 | the badge is red exactly when it reads "Out of stock", and otherwise reads "<stock> in stock" |
| ProductGridView.InStockDiffers | components/ProductGrid.tsx:53 | no stock text makes the positive caption equal "Out of stock" |
| ProductGridView.NumberStockBadge | components/ProductGrid.tsx:51-52 | every number gets a badge, with the tone set by the thresholds 10 and 0 |
| ProductGridView.MissingStockHasNoBadge | components/ProductGrid.tsx:51 | a `null` or `undefined` stock shows no badge |
| ProductGridView.GridPage | components/ProductGrid.tsx:72-76 | page `p` of the rows: at most 12, the slice from the page's offset, empty past the last page, never empty on a page that exists |
| ProductGridView.ProductGrid.TotalPages | components/ProductGrid.tsx:70 | 0 exactly when there are no rows; enough pages, and one fewer would not do |
| ProductGridView.ProductGrid.constructor | components/ProductGrid.tsx:64 | a new grid starts on page 1, with the effect's dependencies recorded |
| ProductGridView.ProductGrid.PaginatedData | components/ProductGrid.tsx:72-76 | in any render, the current page's slice of the current rows: at most 12, empty for a page past the last, and some card whenever there are rows once the reset effect has run |
| ProductGridView.ProductGrid.ReceiveProps | components/ProductGrid.tsx:63 | a render with new props keeps the page |
| ProductGridView.ProductGrid.ResetEffect | components/ProductGrid.tsx:66-68 | the page returns to 1 exactly when the search text or row count differs from the effect's last run |
| ProductGridView.ProductGrid.Rerender | components/ProductGrid.tsx:63-68 | new props and then the effect: the page returns to 1 exactly when the search text or the row count changed |
| ProductGridView.ProductGrid.HandlePageChange | components/ProductGrid.tsx:78-82 | moves to an existing page, otherwise stays |
| PromptFormat.Join | services/geminiService.ts:11 | no parts give ""; the text starts with the first part, followed by the separator when there are more |
| PromptFormat.JoinAvoids | services/geminiService.ts:11 | a joined text holds only the parts' characters and the separator |
| PromptFormat.SplitJoin | services/geminiService.ts:11 | splitting at the separator undoes `join` when no part holds it |
| PromptFormat.HeaderLine | services/geminiService.ts:11 | a single header cell is written as its text |
| PromptFormat.HeaderLineRoundTrip | services/geminiService.ts:11 | the header line splits back into the header cells' texts, an empty field for a hole, when no text holds a comma |
| PromptFormat.BlankHeaderWrittenEmpty | services/geminiService.ts:11-19 | the header row `a, <blank>, c` is written `a,,c`, and the row {a: 1, c: 3} under it `1,,3` |
| PromptFormat.IncludesComma | services/geminiService.ts:15 | `value.includes(',')` holds exactly when a comma is in the string |
| PromptFormat.FieldText | services/geminiService.ts:14-18 | a string with a comma is wrapped in quotes, one without is as is, `null`/`undefined` are empty |
| PromptFormat.ParseField | services/geminiService.ts:14-18 | a reader gets the cell's text back from its written field |
| PromptFormat.FieldTextNoNewline | services/geminiService.ts:14-18 | a field written from a cell without line breaks holds none |
| PromptFormat.ValueUnder | services/geminiService.ts:13-14 | `undefined` under a hole; under a string header the row's value for that key |
| PromptFormat.RowCells | services/geminiService.ts:13-14 | one cell per header cell, in column order, `undefined` for a missing key or a hole |
| PromptFormat.RowLine | services/geminiService.ts:12-19 | no header cells give an empty line; the line starts with the first column's field, followed by a comma when there are more columns |
| PromptFormat.FieldTexts | services/geminiService.ts:13-18 | one written field per cell |
| PromptFormat.CellTexts | services/geminiService.ts:13-18 | one read-back text per cell |
| PromptFormat.ParseFields | services/geminiService.ts:13-19 | a comma-joined line of written fields reads back as the cells' texts |
| PromptFormat.ParseRowLine | services/geminiService.ts:12-19 | a row's line reads back as one field per column holding that cell's text |
| PromptFormat.RowLineNoNewline | services/geminiService.ts:12-19 | a row line has no line break when its cells have none |
| PromptFormat.PreviewCount | services/geminiService.ts:8 | `Math.min(data.length, 20)` |
| PromptFormat.RowLines | services/geminiService.ts:9-20 | exactly the first `PreviewCount` rows, each as its row line, in order |
| PromptFormat.FormatDataForPrompt | services/geminiService.ts:7-23 | the text begins with the header line and a line break, and is only that when there are no rows |
| PromptFormat.PreviewOnly | services/geminiService.ts:8-9 | only the first 20 rows decide the sample |
| PromptFormat.DocumentLines | services/geminiService.ts:11-20 | the sample's lines are the header line and then one line per sampled row |
| PromptFormat.InnerQuoteIsLost | services/geminiService.ts:15-16 | inner double quotes are not escaped: the cell `a"b` reads back as `ab` |
| DashboardState.AddTodo | components/Dashboard.tsx:164-167 | blank text adds nothing; other text appends one open item |
| DashboardState.ToggleTodos | components/Dashboard.tsx:169-171 | flips `completed` on the items with the id and changes nothing else |
| DashboardState.ToggleTwice | components/Dashboard.tsx:169-171 | toggling the same id twice restores the list |
| DashboardState.RemoveTodos | components/Dashboard.tsx:173-175 | the result holds exactly the items without the id |
| DashboardState.RemoveAppend | components/Dashboard.tsx:174 | removal distributes over concatenation, so order is kept |
| DashboardState.RemoveCount | components/Dashboard.tsx:174 | every copy of an item with another id stays; none with the id does |
| DashboardState.RemoveUnused | components/Dashboard.tsx:174 | removing an id no item has changes nothing |
| DashboardState.RemoveAfterAdd | components/Dashboard.tsx:164-175 | removing a just-added item with a fresh id gives the list back |
| DashboardState.AddKeepsNonBlank | components/Dashboard.tsx:165-166 | adding keeps every item's text non-blank |
| DashboardState.ToggleKeepsNonBlank | components/Dashboard.tsx:170 | toggling keeps every item's text non-blank |
| DashboardState.RemoveKeepsNonBlank | components/Dashboard.tsx:174 | removing keeps every item's text non-blank |
| DashboardState.AlternatingRoles | components/Dashboard.tsx:145-155 | a transcript of pairs has even length, user messages at even and model replies at odd positions |
| DashboardState.AlternatingAppend | components/Dashboard.tsx:155 | appending a question and its reply keeps the transcript in pairs |
| DashboardState.ErrorText | components/Dashboard.tsx:136 | an `Error`'s message when there is one, the fallback otherwise |
| DashboardState.CellAt | components/Dashboard.tsx:93 | `row[index]` past the end of the sheet row is `undefined` |
| DashboardState.HeaderKeys | components/Dashboard.tsx:92-94 | every header cell that is not a hole contributes its key |
| DashboardState.HeaderKeysSnoc | components/Dashboard.tsx:92-94 | one more header cell adds its key, or nothing when it is a hole |
| DashboardState.LastIndexExists | components/Dashboard.tsx:92-94 | every key the header row names has a last header cell naming it |
| DashboardState.RowMapsCellsUnique | components/Dashboard.tsx:90-96 | the record is fixed by the header row and the cells |
| DashboardState.RowFromCells | components/Dashboard.tsx:90-96 | the record's keys are exactly those the header cells name, each holding the cell under the last header cell naming it; holes add nothing |
| DashboardState.BlankHeaderSkipped | components/Dashboard.tsx:89-96 | under the header row `a, <blank>, c` the cells 1, 2, 3 make the record {a: 1, c: 3}, with no "undefined" key |
| DashboardState.SheetToDataset | components/Dashboard.tsx:84-99 | fails exactly for fewer than two sheet rows, with the source's message; otherwise the header row is kept as read and each later row becomes one record |
| DashboardState.Dashboard.constructor | components/Dashboard.tsx:15-30 | every piece of state starts empty, `null`, closed or "table" |
| DashboardState.Dashboard.ResetState | components/Dashboard.tsx:32-45 | everything but the context dialog is back to its initial value |
| DashboardState.Dashboard.LoadSpreadsheet | components/Dashboard.tsx:47-99 | reset, then the file name and either the sheet's header row as read and its records, or the too-short error |
| DashboardState.Dashboard.HandleAnalyze | components/Dashboard.tsx:121-140 | without rows only the error is set; otherwise the transcript and items are cleared and the result or the error stored; the transcript invariant holds |
| DashboardState.Dashboard.HandleSendMessage | components/Dashboard.tsx:142-161 | blank text or no analysis: nothing; success appends question and reply; failure restores the transcript and sets the error; the transcript stays in pairs |
| DashboardState.Dashboard.AddTodoItem | components/Dashboard.tsx:164-167 | the items become `AddTodo` of the old items; no item text is blank |
| DashboardState.Dashboard.ToggleTodo | components/Dashboard.tsx:169-171 | the items become `ToggleTodos` of the old items |
| DashboardState.Dashboard.RemoveTodo | components/Dashboard.tsx:173-175 | the items become `RemoveTodos` of the old items |
| DashboardState.Dashboard.HandleSort | components/Dashboard.tsx:177-183 | the sort toggles on the column |
| DashboardState.Dashboard.SetFilter | components/Dashboard.tsx:279 | the search text is replaced |
| DashboardState.Dashboard.SetViewMode | components/Dashboard.tsx:266 | the view mode is replaced |
| DashboardState.Dashboard.SortedData | components/Dashboard.tsx:194-214 | the dashboard's searched rows in the specified order, a permutation with missing values last |
| DashboardState.Dashboard.GenerateDataContext | components/Dashboard.tsx:216-229 | the snapshot records the header row, view settings, all searched and sorted rows and the analysis, and opens the dialog |
| DashboardState.Dashboard.CloseContextModal | components/Dashboard.tsx:235 | the dialog is closed |

## Left out

- Reading the file (FileReader, its `onload` and `onerror`), the CSV branch through Papa Parse, and the dispatch on the file extension are not modelled. Papa Parse and the XLSX library are outside the model. Only the spreadsheet branch after `sheet_to_json` is modelled, taking the sheet's rows as a parameter (`LoadSpreadsheet`).
- The calls to the remote model (`analyzeDataWithGemini`, `continueChat`), their prompts and response schema are outside this model. Each handler takes the call's outcome as a parameter.
- The `isAnalyzing` and `isChatting` loading flags, and the interleaving of asynchronous handlers, are not modelled. Each handler is one atomic step.
- Rendering (JSX, icons, class names, the price text from `parseFloat(...).toFixed(2)`) is not modelled beyond the values the views compute.
- Numbers are whole numbers. Prices, stock counts and chart values with fractions, NaN and Infinity are not modelled.
- ToLower: lower-cases only the letters A to Z. Full Unicode case mapping is not modelled.
- ToNumber: `Number(text)` reads blank text as 0 and an optionally signed decimal integer after trimming as that integer. Fractions, exponents, hexadecimal, binary and octal literals and "Infinity" are read as NaN here, unlike JavaScript.
- IntToString: JavaScript numbers are IEEE doubles. Integers beyond 2^53 lose precision, and `String(n)` switches to exponent form from 1e21. The model's integers are exact and always written in plain digits.
- FieldText: a number cell is written through IntToString, so the same exponent-form difference applies to the sample text.
- SortedInOrder: `<` between a number and a string is false both ways. JavaScript's numeric coercion of the string is not modelled. For this reason the ordering result needs a single-kind column.
- String `<` compares characters as code points rather than UTF-16 code units. The two differ only outside the Basic Multilingual Plane.
- The engine's `Array.prototype.sort` is modelled as insertion sort calling the comparator as V8's insertion sort does: the row being placed first, the earlier row second. The comparator answers 1 for two missing values in either order (`CompareMissingPair`), so an engine calling it the other way round would reverse such rows.
- A header cell holding `null` names the key "null", as `String(null)` does; the sheet reader does not produce one. In data rows a hole reads as `undefined`, like a cell past the end of the row.
- TotalPages: it is written by recursion and `Times` by repeated addition. This keeps the proofs linear. `TotalPagesIsCeiling` and `TimesIsProduct` tie them to `Math.ceil` and `*`.
- The agent-context dialog's display (`AgentContextModal`), the application shell (`App.tsx`), `AnalysisPanel` and `FileUpload` are not part of this model, beyond the state the dashboard hands them.

## Findings

| source | as written | input that shows it | evidently intended | confidence | as-written member | corrected member |
|---|---|---|---|---|---|---|
| components/ProductGrid.tsx:19-20 | `findKey` calls `header.toLowerCase()` on every header cell up to the first match, holes included; a number or a blank header cell is not a string, so the call throws a `TypeError` while the grid renders | header row `[2024, "name"]`, or a blank first header cell then `"name"`, looking for the name column | the header cells are looked up by their text and blank cells passed over, as the `as string[]` cast of the header row at components/Dashboard.tsx:89 assumes | not executed | ProductGridView.FindKeyAsWritten, ProductGridView.NonStringHeaderThrows | ProductGridView.FindKey |

=== FILE: app_types.dfy ===
/**
 * The records the dashboard keeps in its state: the analysis result, chat
 * messages, action items and the agent-context snapshot.
 */
module AppTypes {
  import opened Outcomes
  import opened JsValues
  import opened RowSort

  datatype DataOverview = DataOverview(description: Option<string>, qualityIssues: Option<seq<string>>)

  datatype KeyInsight = KeyInsight(insight: Option<string>, supportingData: Option<string>)

  datatype Anomaly = Anomaly(anomaly: Option<string>, details: Option<string>)

  datatype ChartKind = Bar | Pie

  /** One bar or slice: its `label` and its value, a whole number here. */
  datatype ChartPoint = ChartPoint(labelText: string, value: int)

  datatype Visualization = Visualization(title: string, kind: ChartKind, points: seq<ChartPoint>)

  /** `AnalysisResult`: every section may be absent. */
  datatype AnalysisResult = AnalysisResult(
    dataOverview: Option<DataOverview>,
    keyInsights: Option<seq<KeyInsight>>,
    potentialAnomalies: Option<seq<Anomaly>>,
    actionableRecommendations: Option<seq<string>>,
    suggestedAgentTasks: Option<seq<string>>,
    suggestedVisualizations: Option<seq<Visualization>>)

  datatype Role = User | Model

  datatype ChatMessage = ChatMessage(role: Role, text: string)

  /** `TodoItem`: an action item. */
  datatype TodoItem = TodoItem(id: string, text: string, completed: bool)

  datatype ViewMode = Table | Grid

  datatype ViewSettings = ViewSettings(filterQuery: string, sortConfig: Option<SortConfig>, viewMode: ViewMode)

  /** `DataContext`: what the agent-context dialog shows. */
  datatype DataContext = DataContext(
    schema: seq<Cell>,
    viewSettings: ViewSettings,
    dataSnapshot: seq<Row>,
    initialAnalysis: Option<AnalysisResult>)
}

=== FILE: dashboard.dfy ===
/**
 * The dashboard: the loaded rows and column names, the analysis and the chat
 * about it, the action items, and the search, sort and view choices that the
 * agent-context snapshot records.
 *
 * The remote analysis and chat calls are not modelled; each handler takes the
 * call's outcome as a parameter: the result, or the failure with the error's
 * message when the thrown value is an `Error` and no message otherwise.
 */
module DashboardState {
  import opened Outcomes
  import opened JsValues
  import opened RowFilter
  import opened RowSort
  import opened AppTypes

  // ---------------------------------------------------------------------------
  // Action items

  /** `addTodo(text)`: nothing for blank text, otherwise one new open item at the end. */
  function AddTodo(todos: seq<TodoItem>, id: string, text: string): (r: seq<TodoItem>)
    ensures IsBlank(text) ==> r == todos
    ensures !IsBlank(text) ==> r == todos + [TodoItem(id, text, false)]
  {
    TrimEmptyIffBlank(text);
    if Trim(text) == "" then todos else todos + [TodoItem(id, text, false)]
  }

  /** `toggleTodo(id)`: flip `completed` on the items with that id; every other item stays as it was. */
  function ToggleTodos(todos: seq<TodoItem>, id: string): (r: seq<TodoItem>)
    ensures |r| == |todos|
    ensures forall i :: 0 <= i < |todos| && todos[i].id != id ==> r[i] == todos[i]
    ensures forall i :: 0 <= i < |todos| && todos[i].id == id ==>
              r[i] == TodoItem(id, todos[i].text, !todos[i].completed)
  {
    seq(|todos|, i requires 0 <= i < |todos| =>
      if todos[i].id == id then todos[i].(completed := !todos[i].completed) else todos[i])
  }

  /** Toggling the same id twice gives the list back. */
  lemma ToggleTwice(todos: seq<TodoItem>, id: string)
    ensures ToggleTodos(ToggleTodos(todos, id), id) == todos
  {
  }

  /** `removeTodo(id)`: the items without that id, in their order. */
  function RemoveTodos(todos: seq<TodoItem>, id: string): (r: seq<TodoItem>)
    ensures |r| <= |todos|
    ensures forall t :: t in r <==> t in todos && t.id != id
  {
    if todos == [] then []
    else (if todos[0].id != id then [todos[0]] else []) + RemoveTodos(todos[1..], id)
  }

  /** Removing works item by item: it distributes over concatenation, so the order of the rest is kept. */
  lemma {:induction false} RemoveAppend(a: seq<TodoItem>, b: seq<TodoItem>, id: string)
    ensures RemoveTodos(a + b, id) == RemoveTodos(a, id) + RemoveTodos(b, id)
    decreases |a|
  {
    if a == [] {
      assert a + b == b;
    } else {
      assert (a + b)[0] == a[0];
      assert (a + b)[1..] == a[1..] + b;
      RemoveAppend(a[1..], b, id);
    }
  }

  /** Every copy of an item with another id stays; no item with the id does. */
  lemma {:induction false} RemoveCount(todos: seq<TodoItem>, id: string, t: TodoItem)
    ensures multiset(RemoveTodos(todos, id))[t] == if t.id == id then 0 else multiset(todos)[t]
    decreases |todos|
  {
    if todos != [] {
      RemoveCount(todos[1..], id, t);
      assert todos == [todos[0]] + todos[1..];
    }
  }

  /** Removing a just-added item, whose id no earlier item has, gives the list back. */
  lemma RemoveAfterAdd(todos: seq<TodoItem>, id: string, text: string)
    requires forall t :: t in todos ==> t.id != id
    ensures RemoveTodos(AddTodo(todos, id, text), id) == todos
  {
    RemoveUnused(todos, id);
    if !IsBlank(text) {
      RemoveAppend(todos, [TodoItem(id, text, false)], id);
      assert RemoveTodos([TodoItem(id, text, false)], id) == [];
    }
  }

  /** Removing an id no item has changes nothing. */
  lemma {:induction false} RemoveUnused(todos: seq<TodoItem>, id: string)
    requires forall t :: t in todos ==> t.id != id
    ensures RemoveTodos(todos, id) == todos
    decreases |todos|
  {
    if todos != [] {
      assert todos[0] in todos;
      RemoveUnused(todos[1..], id);
    }
  }

  /** No item has blank text. */
  predicate NonBlankItems(todos: seq<TodoItem>) {
    forall i :: 0 <= i < |todos| ==> !IsBlank(todos[i].text)
  }

  /** Adding keeps every item's text non-blank. */
  lemma AddKeepsNonBlank(todos: seq<TodoItem>, id: string, text: string)
    requires NonBlankItems(todos)
    ensures NonBlankItems(AddTodo(todos, id, text))
  {
    var r := AddTodo(todos, id, text);
    forall i | 0 <= i < |r| ensures !IsBlank(r[i].text) {
      if i < |todos| {
        assert r[i] == todos[i];
      }
    }
  }

  /** Toggling keeps every item's text. */
  lemma ToggleKeepsNonBlank(todos: seq<TodoItem>, id: string)
    requires NonBlankItems(todos)
    ensures NonBlankItems(ToggleTodos(todos, id))
  {
    var r := ToggleTodos(todos, id);
    forall i | 0 <= i < |r| ensures !IsBlank(r[i].text) {
      assert r[i].text == todos[i].text;
    }
  }

  /** Removing keeps only items that were there. */
  lemma RemoveKeepsNonBlank(todos: seq<TodoItem>, id: string)
    requires NonBlankItems(todos)
    ensures NonBlankItems(RemoveTodos(todos, id))
  {
    var r := RemoveTodos(todos, id);
    forall i | 0 <= i < |r| ensures !IsBlank(r[i].text) {
      assert r[i] in todos;
      var k :| 0 <= k < |todos| && todos[k] == r[i];
    }
  }

  // ---------------------------------------------------------------------------
  // Chat transcript

  /** The transcript is question-and-reply pairs: a user message, then the model's reply. */
  predicate Alternating(history: seq<ChatMessage>)
    decreases |history|
  {
    history == [] ||
    (|history| >= 2 && history[0].role == User && history[1].role == Model && Alternating(history[2..]))
  }

  /** In a transcript of pairs the even positions are the user's and the odd ones the model's. */
  lemma {:induction false} AlternatingRoles(history: seq<ChatMessage>)
    requires Alternating(history)
    ensures |history| % 2 == 0
    ensures forall i :: 0 <= i < |history| ==> history[i].role == (if i % 2 == 0 then User else Model)
    decreases |history|
  {
    if history != [] {
      var rest := history[2..];
      AlternatingRoles(rest);
      forall i | 2 <= i < |history|
        ensures history[i].role == (if i % 2 == 0 then User else Model)
      {
        assert history[i] == rest[i - 2];
      }
    }
  }

  /** Appending a question and its reply keeps the transcript in pairs. */
  lemma {:induction false} AlternatingAppend(history: seq<ChatMessage>, question: string, reply: string)
    requires Alternating(history)
    ensures Alternating(history + [ChatMessage(User, question), ChatMessage(Model, reply)])
    decreases |history|
  {
    var pair := [ChatMessage(User, question), ChatMessage(Model, reply)];
    if history == [] {
      assert (history + pair)[2..] == [];
    } else {
      AlternatingAppend(history[2..], question, reply);
      assert (history + pair)[2..] == history[2..] + pair;
    }
  }

  /** `err instanceof Error ? err.message : fallback`. */
  function ErrorText(failure: Option<string>, fallback: string): (r: string)
    ensures failure.None? ==> r == fallback
    ensures failure.Some? ==> r == failure.value
  {
    match failure
    case Some(message) => message
    case None => fallback
  }

  // ---------------------------------------------------------------------------
  // Spreadsheet rows

  /** `row[index]`: past the end of the sheet row the value is `undefined`. */
  function CellAt(cells: seq<Cell>, index: nat): (c: Cell)
    ensures index < |cells| ==> c == cells[index]
    ensures index >= |cells| ==> c == Undef
  {
    if index < |cells| then cells[index] else Undef
  }

  /** No later header cell names the same key as header cell `j`. */
  predicate LastWithKey(headers: seq<Cell>, j: nat)
    requires j < |headers|
  {
    forall k :: j < k < |headers| ==> HeaderKey(headers[k]) != HeaderKey(headers[j])
  }

  /** The keys the header row names: one for each header cell that is not a hole. */
  function HeaderKeys(headers: seq<Cell>): (r: set<string>)
    ensures forall j :: 0 <= j < |headers| && !headers[j].Undef? ==> ToJsString(headers[j]) in r
  {
    set j | 0 <= j < |headers| && HeaderKey(headers[j]).Some? :: HeaderKey(headers[j]).value
  }

  /** One more header cell adds its key, or nothing when it is a hole. */
  lemma HeaderKeysSnoc(prefix: seq<Cell>, h: Cell)
    ensures HeaderKeys(prefix + [h]) == HeaderKeys(prefix) + (if h.Undef? then {} else {ToJsString(h)})
  {
    var next := prefix + [h];
    forall k | k in HeaderKeys(next)
      ensures k in HeaderKeys(prefix) || HeaderKey(h) == Some(k)
    {
      var i :| 0 <= i < |next| && HeaderKey(next[i]) == Some(k);
      if i < |prefix| {
        assert next[i] == prefix[i];
      }
    }
    forall k | k in HeaderKeys(prefix)
      ensures k in HeaderKeys(next)
    {
      var i :| 0 <= i < |prefix| && HeaderKey(prefix[i]) == Some(k);
      assert next[i] == prefix[i];
    }
    assert next[|prefix|] == h;
  }

  /**
   * `row` is the record built from one sheet row: its keys are exactly the
   * keys the header row names, and each key holds the cell under the last
   * header cell naming it. A hole in the header row contributes nothing.
   */
  predicate RowMapsCells(row: Row, headers: seq<Cell>, cells: seq<Cell>) {
    row.Keys == HeaderKeys(headers) &&
    forall j :: 0 <= j < |headers| && HeaderKey(headers[j]).Some? && LastWithKey(headers, j) ==>
      row[HeaderKey(headers[j]).value] == CellAt(cells, j)
  }

  /** Every key the header row names has a last header cell naming it. */
  lemma {:induction false} LastIndexExists(headers: seq<Cell>, key: string)
    requires key in HeaderKeys(headers)
    ensures exists j :: 0 <= j < |headers| && HeaderKey(headers[j]) == Some(key) && LastWithKey(headers, j)
    decreases |headers|
  {
    var n := |headers|;
    if HeaderKey(headers[n - 1]) == Some(key) {
      assert LastWithKey(headers, n - 1);
    } else {
      var init := headers[..n - 1];
      KeyInInit(headers, key);
      LastIndexExists(init, key);
      var j :| 0 <= j < |init| && HeaderKey(init[j]) == Some(key) && LastWithKey(init, j);
      LastWithKeyExtend(headers, j);
    }
  }

  /** A key that the last header cell does not name is named by an earlier one. */
  lemma KeyInInit(headers: seq<Cell>, key: string)
    requires key in HeaderKeys(headers) && HeaderKey(headers[|headers| - 1]) != Some(key)
    ensures key in HeaderKeys(headers[..|headers| - 1])
  {
    var init := headers[..|headers| - 1];
    var i :| 0 <= i < |headers| && HeaderKey(headers[i]).Some? && HeaderKey(headers[i]).value == key;
    assert init[i] == headers[i];
  }

  /** The last cell naming a key in the prefix stays the last one when the final cell names another key. */
  lemma LastWithKeyExtend(headers: seq<Cell>, j: nat)
    requires j < |headers| - 1
    requires LastWithKey(headers[..|headers| - 1], j)
    requires HeaderKey(headers[|headers| - 1]) != HeaderKey(headers[j])
    ensures LastWithKey(headers, j)
  {
    var n := |headers|;
    var init := headers[..n - 1];
    forall k | j < k < n
      ensures HeaderKey(headers[k]) != HeaderKey(headers[j])
    {
      if k < n - 1 {
        assert headers[k] == init[k];
      }
    }
  }

  /** The record is determined by the header row and the cells. */
  lemma RowMapsCellsUnique(r1: Row, r2: Row, headers: seq<Cell>, cells: seq<Cell>)
    requires RowMapsCells(r1, headers, cells) && RowMapsCells(r2, headers, cells)
    ensures r1 == r2
  {
    forall k | k in r1 ensures r1[k] == r2[k] {
      LastIndexExists(headers, k);
    }
    assert r1.Keys == r2.Keys;
  }

  /** `headerRow.forEach((header, index) => { rowData[header] = row[index]; })`, which skips holes. */
  method RowFromCells(headers: seq<Cell>, cells: seq<Cell>) returns (row: Row)
    ensures RowMapsCells(row, headers, cells)
  {
    row := map[];
    var j := 0;
    while j < |headers|
      invariant 0 <= j <= |headers|
      invariant RowMapsCells(row, headers[..j], cells)
    {
      var key := HeaderKey(headers[j]);
      if key.Some? {
        AssignStep(row, headers, cells, j);
        row := row[key.value := CellAt(cells, j)];
      } else {
        HoleStep(row, headers, cells, j);
      }
      j := j + 1;
    }
    assert headers[..j] == headers;
  }

  /** One assignment of the loop above extends the record to one more header cell. */
  lemma AssignStep(row: Row, headers: seq<Cell>, cells: seq<Cell>, j: nat)
    requires j < |headers| && HeaderKey(headers[j]).Some?
    requires RowMapsCells(row, headers[..j], cells)
    ensures RowMapsCells(row[HeaderKey(headers[j]).value := CellAt(cells, j)], headers[..j + 1], cells)
  {
    var next := headers[..j + 1];
    var r := row[HeaderKey(headers[j]).value := CellAt(cells, j)];
    AssignKeys(row, headers, CellAt(cells, j), j);
    forall i | 0 <= i < |next| && HeaderKey(next[i]).Some? && LastWithKey(next, i)
      ensures r[HeaderKey(next[i]).value] == CellAt(cells, i)
    {
      assert next[i] == headers[i];
      if i < j {
        AssignEarlier(row, headers, cells, j, i);
      }
    }
  }

  /** The assignment adds the cell's key to the record's keys. */
  lemma AssignKeys(row: Row, headers: seq<Cell>, v: Cell, j: nat)
    requires j < |headers| && HeaderKey(headers[j]).Some?
    requires row.Keys == HeaderKeys(headers[..j])
    ensures row[HeaderKey(headers[j]).value := v].Keys == HeaderKeys(headers[..j + 1])
  {
    assert headers[..j + 1] == headers[..j] + [headers[j]];
    HeaderKeysSnoc(headers[..j], headers[j]);
  }

  /** A header cell before the assigned one that is still last with its key keeps its value. */
  lemma AssignEarlier(row: Row, headers: seq<Cell>, cells: seq<Cell>, j: nat, i: nat)
    requires i < j < |headers| && HeaderKey(headers[j]).Some?
    requires RowMapsCells(row, headers[..j], cells)
    requires HeaderKey(headers[i]).Some? && LastWithKey(headers[..j + 1], i)
    ensures row[HeaderKey(headers[j]).value := CellAt(cells, j)][HeaderKey(headers[i]).value] == CellAt(cells, i)
  {
    var prefix, next := headers[..j], headers[..j + 1];
    LastWithKeyInit(next, i);
    assert next[..j] == prefix;
    assert next[i] == headers[i] && next[j] == headers[j];
    assert prefix[i] == headers[i];
  }

  /** A hole in the header row leaves the record as it is. */
  lemma HoleStep(row: Row, headers: seq<Cell>, cells: seq<Cell>, j: nat)
    requires j < |headers| && headers[j].Undef?
    requires RowMapsCells(row, headers[..j], cells)
    ensures RowMapsCells(row, headers[..j + 1], cells)
  {
    var prefix, next := headers[..j], headers[..j + 1];
    assert next == prefix + [headers[j]];
    assert next[..j] == prefix;
    HeaderKeysSnoc(prefix, headers[j]);
    forall i | 0 <= i < |next| && HeaderKey(next[i]).Some? && LastWithKey(next, i)
      ensures row[HeaderKey(next[i]).value] == CellAt(cells, i)
    {
      LastWithKeyInit(next, i);
    }
  }

  /** A header cell that is the last with its key differs from the final one, and stays last without it. */
  lemma LastWithKeyInit(headers: seq<Cell>, i: nat)
    requires i + 1 < |headers|
    requires LastWithKey(headers, i)
    ensures HeaderKey(headers[i]) != HeaderKey(headers[|headers| - 1])
    ensures LastWithKey(headers[..|headers| - 1], i)
  {
    var init := headers[..|headers| - 1];
    forall k | i < k < |init|
      ensures HeaderKey(init[k]) != HeaderKey(init[i])
    {
      assert init[k] == headers[k];
    }
  }

  /**
   * A blank header cell names no key: the record for `a, <blank>, c` over the
   * cells 1, 2, 3 is {a: 1, c: 3}, not one with an "undefined" key.
   */
  lemma BlankHeaderSkipped()
    ensures RowMapsCells(map["a" := Num(1), "c" := Num(3)], [Str("a"), Undef, Str("c")], [Num(1), Num(2), Num(3)])
    ensures !RowMapsCells(map["a" := Num(1), "undefined" := Num(2), "c" := Num(3)],
                          [Str("a"), Undef, Str("c")], [Num(1), Num(2), Num(3)])
  {
    var headers := [Str("a"), Undef, Str("c")];
    HeaderKeysSnoc([Str("a"), Undef], Str("c"));
    HeaderKeysSnoc([Str("a")], Undef);
    HeaderKeysSnoc([], Str("a"));
    assert [Str("a")] == [] + [Str("a")];
    assert [Str("a"), Undef] == [Str("a")] + [Undef];
    assert headers == [Str("a"), Undef] + [Str("c")];
    assert HeaderKeys(headers) == {"a", "c"};
    assert HeaderKey(headers[1]).None?;
    assert "undefined" !in HeaderKeys(headers);
  }

  const SheetTooShort := "Excel file needs a header row and at least one data row."

  /** The header row, as read, and the records read from a sheet. */
  datatype Dataset = Dataset(headers: seq<Cell>, rows: seq<Row>)

  /**
   * Turning the rows of the first sheet into column names and records: fewer
   * than two sheet rows is an error; otherwise the first row is kept as the
   * header row and every later row becomes one record.
   */
  method SheetToDataset(sheet: seq<seq<Cell>>) returns (r: Result<Dataset, string>)
    ensures r.Failure? <==> |sheet| < 2
    ensures r.Failure? ==> r.error == SheetTooShort
    ensures r.Success? ==> r.value.headers == sheet[0] && |r.value.rows| == |sheet| - 1
    ensures r.Success? ==> forall i :: 0 <= i < |r.value.rows| ==>
              RowMapsCells(r.value.rows[i], r.value.headers, sheet[i + 1])
  {
    if |sheet| < 2 {
      return Failure(SheetTooShort);
    }
    var headers := sheet[0];
    var rows: seq<Row> := [];
    var i := 1;
    while i < |sheet|
      invariant 1 <= i <= |sheet|
      invariant |rows| == i - 1
      invariant forall k :: 0 <= k < |rows| ==> RowMapsCells(rows[k], headers, sheet[k + 1])
    {
      var row := RowFromCells(headers, sheet[i]);
      rows := rows + [row];
      i := i + 1;
    }
    return Success(Dataset(headers, rows));
  }

  // ---------------------------------------------------------------------------
  // The dashboard's state

  const NoDataToAnalyze := "No data available to analyze."
  const AnalysisFailed := "An unknown error occurred during analysis."
  const ChatFailed := "An unknown error occurred during chat."

  class Dashboard {
    var data: seq<Row>
    var headers: seq<Cell>
    var fileName: string
    var error: Option<string>
    var analysis: Option<AnalysisResult>
    var viewMode: ViewMode
    var chatHistory: seq<ChatMessage>
    var todos: seq<TodoItem>
    var sortConfig: Option<SortConfig>
    var filter: string
    var isContextModalOpen: bool
    var dataContext: Option<DataContext>

    /**
     * The transcript alternates user and model messages and exists only
     * about an analysis, and no action item has blank text.
     */
    ghost predicate Valid()
      reads this
    {
      Alternating(chatHistory) && (chatHistory != [] ==> analysis.Some?) && NonBlankItems(todos)
    }

    constructor ()
      ensures data == [] && headers == [] && fileName == "" && error == None && analysis == None
      ensures viewMode == Table && chatHistory == [] && todos == [] && sortConfig == None && filter == ""
      ensures !isContextModalOpen && dataContext == None
      ensures Valid()
    {
      data := [];
      headers := [];
      fileName := "";
      error := None;
      analysis := None;
      viewMode := Table;
      chatHistory := [];
      todos := [];
      sortConfig := None;
      filter := "";
      isContextModalOpen := false;
      dataContext := None;
    }

    /** `resetState`: back to no file; the context dialog and its snapshot are left alone. */
    method ResetState()
      modifies this`data, this`headers, this`fileName, this`error, this`analysis, this`viewMode
      modifies this`chatHistory, this`todos, this`sortConfig, this`filter
      ensures data == [] && headers == [] && fileName == "" && error == None && analysis == None
      ensures viewMode == Table && chatHistory == [] && todos == [] && sortConfig == None && filter == ""
      ensures Valid()
    {
      data := [];
      headers := [];
      fileName := "";
      error := None;
      analysis := None;
      viewMode := Table;
      chatHistory := [];
      todos := [];
      filter := "";
      sortConfig := None;
    }

    /**
     * Loading a spreadsheet file named `name` whose first sheet has the rows
     * `sheet`: the state is reset and then holds the sheet's columns and
     * records, or the error for a sheet that is too short.
     */
    method LoadSpreadsheet(name: string, sheet: seq<seq<Cell>>)
      modifies this`data, this`headers, this`fileName, this`error, this`analysis, this`viewMode
      modifies this`chatHistory, this`todos, this`sortConfig, this`filter
      ensures fileName == name
      ensures analysis == None && viewMode == Table && chatHistory == [] && todos == []
      ensures sortConfig == None && filter == ""
      ensures |sheet| < 2 ==> error == Some(SheetTooShort) && data == [] && headers == []
      ensures |sheet| >= 2 ==> error == None && headers == sheet[0] && |data| == |sheet| - 1
      ensures |sheet| >= 2 ==> forall i :: 0 <= i < |data| ==> RowMapsCells(data[i], headers, sheet[i + 1])
      ensures Valid()
    {
      ResetState();
      fileName := name;
      error := None;
      var outcome := SheetToDataset(sheet);
      match outcome
      case Failure(message) =>
        error := Some(message);
      case Success(dataset) =>
        headers := dataset.headers;
        data := dataset.rows;
    }

    /**
     * `handleAnalyze`, given the outcome of the analysis call. Without rows
     * only the error is set. Otherwise the analysis, transcript and action
     * items are cleared, and then the result is stored or the error set.
     */
    method HandleAnalyze(outcome: Result<AnalysisResult, Option<string>>)
      requires Valid()
      modifies this`error, this`analysis, this`chatHistory, this`todos
      ensures data == [] ==> error == Some(NoDataToAnalyze) && analysis == old(analysis) &&
                             chatHistory == old(chatHistory) && todos == old(todos)
      ensures data != [] ==> chatHistory == [] && todos == []
      ensures data != [] && outcome.Success? ==> analysis == Some(outcome.value) && error == None
      ensures data != [] && outcome.Failure? ==> analysis == None && error == Some(ErrorText(outcome.error, AnalysisFailed))
      ensures Valid()
    {
      if |data| == 0 {
        error := Some(NoDataToAnalyze);
        return;
      }
      analysis := None;
      chatHistory := [];
      todos := [];
      error := None;
      match outcome
      case Success(result) =>
        analysis := Some(result);
      case Failure(failure) =>
        error := Some(ErrorText(failure, AnalysisFailed));
    }

    /**
     * `handleSendMessage(message)`, given the outcome of the chat call.
     * Nothing happens for blank text or without an analysis. On success the
     * question and the reply are appended; on failure the transcript is put
     * back as it was and the error is set.
     */
    method HandleSendMessage(message: string, reply: Result<string, Option<string>>)
      requires Valid()
      modifies this`chatHistory, this`error
      ensures IsBlank(message) || analysis.None? ==> chatHistory == old(chatHistory) && error == old(error)
      ensures !IsBlank(message) && analysis.Some? && reply.Success? ==>
                chatHistory == old(chatHistory) + [ChatMessage(User, message), ChatMessage(Model, reply.value)] &&
                error == None
      ensures !IsBlank(message) && analysis.Some? && reply.Failure? ==>
                chatHistory == old(chatHistory) && error == Some(ErrorText(reply.error, ChatFailed))
      ensures Valid()
    {
      var blank := Trim(message) == "";
      assert blank == IsBlank(message) by {
        TrimEmptyIffBlank(message);
      }
      if blank || analysis.None? {
        return;
      }
      var previous := chatHistory;
      var updatedHistory := chatHistory + [ChatMessage(User, message)];
      chatHistory := updatedHistory;
      error := None;
      match reply
      case Success(text) =>
        // the optimistic transcript with the reply after it
        chatHistory := previous + [ChatMessage(User, message), ChatMessage(Model, text)];
        AlternatingAppend(previous, message, text);
      case Failure(failure) =>
        error := Some(ErrorText(failure, ChatFailed));
        chatHistory := previous;
    }

    /** `addTodo(text)`, with the new item's id given. */
    method AddTodoItem(id: string, text: string)
      requires Valid()
      modifies this`todos
      ensures todos == AddTodo(old(todos), id, text)
      ensures Valid()
    {
      AddKeepsNonBlank(todos, id, text);
      todos := AddTodo(todos, id, text);
    }

    /** `toggleTodo(id)`. */
    method ToggleTodo(id: string)
      requires Valid()
      modifies this`todos
      ensures todos == ToggleTodos(old(todos), id)
      ensures Valid()
    {
      ToggleKeepsNonBlank(todos, id);
      todos := ToggleTodos(todos, id);
    }

    /** `removeTodo(id)`. */
    method RemoveTodo(id: string)
      requires Valid()
      modifies this`todos
      ensures todos == RemoveTodos(old(todos), id)
      ensures Valid()
    {
      RemoveKeepsNonBlank(todos, id);
      todos := RemoveTodos(todos, id);
    }

    /** `handleSort(key)`: the column-header toggle on the dashboard's sort. */
    method HandleSort(key: string)
      requires Valid()
      modifies this`sortConfig
      ensures sortConfig == Some(NextSortConfig(old(sortConfig), key))
      ensures Valid()
    {
      sortConfig := Some(NextSortConfig(sortConfig, key));
    }

    /** `setFilter(text)`, the grid's search box. */
    method SetFilter(text: string)
      requires Valid()
      modifies this`filter
      ensures filter == text
      ensures Valid()
    {
      filter := text;
    }

    /** `setViewMode(mode)`, the table/grid switch. */
    method SetViewMode(mode: ViewMode)
      requires Valid()
      modifies this`viewMode
      ensures viewMode == mode
      ensures Valid()
    {
      viewMode := mode;
    }

    /** `sortedData`: the dashboard's rows, searched and sorted by its own filter and sort. */
    method SortedData() returns (rows: seq<Row>)
      ensures rows == SortSpec(Filter(data, filter), sortConfig)
      ensures multiset(rows) == multiset(Filter(data, filter))
      ensures sortConfig.Some? ==> MissingLast(rows, sortConfig.value.key)
    {
      rows := SortRows(Filter(data, filter), sortConfig);
    }

    /**
     * `generateDataContext`: snapshot the columns, the view settings, all the
     * searched and sorted rows (not one page) and the analysis, and open the
     * dialog.
     */
    method GenerateDataContext()
      requires Valid()
      modifies this`dataContext, this`isContextModalOpen
      ensures dataContext == Some(DataContext(headers, ViewSettings(filter, sortConfig, viewMode),
                                              SortSpec(Filter(data, filter), sortConfig), analysis))
      ensures multiset(dataContext.value.dataSnapshot) == multiset(Filter(data, filter))
      ensures isContextModalOpen
      ensures Valid()
    {
      var snapshot := SortedData();
      dataContext := Some(DataContext(headers, ViewSettings(filter, sortConfig, viewMode), snapshot, analysis));
      isContextModalOpen := true;
    }

    /** Closing the context dialog. */
    method CloseContextModal()
      requires Valid()
      modifies this`isContextModalOpen
      ensures !isContextModalOpen
      ensures Valid()
    {
      isContextModalOpen := false;
    }
  }
}

=== FILE: data_table.dfy ===
/**
 * The table view: its own search text, sort configuration and current page,
 * over the rows and column names it was given. The rows a `DataTable` is
 * given do not change while it is shown (the dashboard shows a new one when
 * its rows change), so they are constant fields here.
 */
module DataTableView {
  import opened Outcomes
  import opened JsValues
  import opened RowFilter
  import opened RowSort
  import opened Pagination

  class DataTable {
    const headers: seq<Cell>
    const data: seq<Row>
    var sortConfig: Option<SortConfig>
    var currentPage: int
    var filter: string

    /** `totalPages`: sorting keeps the number of filtered rows, so it is counted on them. */
    function TotalPages(): (r: nat)
      reads this
      ensures r == 0 <==> Filter(data, filter) == []
      ensures Times(r, TablePageSize) >= |Filter(data, filter)|
      ensures r > 0 ==> Times(r - 1, TablePageSize) < |Filter(data, filter)|
    {
      Pagination.TotalPages(|Filter(data, filter)|, TablePageSize)
    }

    /**
     * The current page is a page number, and it is page 1 or a page that
     * exists: the table never points past its last page.
     */
    ghost predicate Valid()
      reads this
    {
      currentPage >= 1 && (currentPage == 1 || currentPage <= TotalPages())
    }

    /** A fresh table: no sort, page 1, empty search. */
    constructor (headers: seq<Cell>, data: seq<Row>)
      ensures this.headers == headers && this.data == data
      ensures sortConfig == None && currentPage == 1 && filter == ""
      ensures Valid()
    {
      this.headers := headers;
      this.data := data;
      sortConfig := None;
      currentPage := 1;
      filter := "";
    }

    /** `sortedData`: the filtered rows, sorted by the configuration when there is one. */
    method SortedData() returns (rows: seq<Row>)
      ensures rows == SortSpec(Filter(data, filter), sortConfig)
      ensures multiset(rows) == multiset(Filter(data, filter))
      ensures sortConfig.Some? ==> MissingLast(rows, sortConfig.value.key)
      ensures sortConfig.Some? && Homogeneous(Filter(data, filter), sortConfig.value.key) ==>
                OrderedBy(rows, sortConfig.value)
    {
      rows := SortRows(Filter(data, filter), sortConfig);
    }

    /**
     * `paginatedData`: the current page of the sorted rows. It is never empty
     * while some row passes the search.
     */
    method PaginatedData() returns (page: seq<Row>)
      requires Valid()
      ensures page == PageOf(SortSpec(Filter(data, filter), sortConfig), currentPage, TablePageSize)
      ensures |page| <= TablePageSize
      ensures Filter(data, filter) != [] ==> page != []
    {
      var sorted := SortRows(Filter(data, filter), sortConfig);
      page := PageOf(sorted, currentPage, TablePageSize);
      if Filter(data, filter) != [] {
        PageOfNonEmpty(sorted, currentPage, TablePageSize);
      }
    }

    /** `requestSort(key)`: toggle the sort on the column and go back to page 1. */
    method RequestSort(key: string)
      requires Valid()
      modifies this
      ensures sortConfig == Some(NextSortConfig(old(sortConfig), key))
      ensures currentPage == 1 && filter == old(filter)
      ensures Valid()
    {
      sortConfig := Some(NextSortConfig(sortConfig, key));
      currentPage := 1;
    }

    /** `handlePageChange(page)`: move to the page when it exists, otherwise stay. */
    method HandlePageChange(page: int)
      requires Valid()
      modifies this
      ensures 1 <= page <= TotalPages() ==> currentPage == page
      ensures !(1 <= page <= TotalPages()) ==> currentPage == old(currentPage)
      ensures sortConfig == old(sortConfig) && filter == old(filter)
      ensures Valid()
    {
      if page >= 1 && page <= TotalPages() {
        currentPage := page;
      }
    }

    /** Typing in the search box: the new text is the filter and the view goes back to page 1. */
    method ChangeFilter(text: string)
      requires Valid()
      modifies this
      ensures filter == text && currentPage == 1 && sortConfig == old(sortConfig)
      ensures Valid()
    {
      filter := text;
      currentPage := 1;
    }
  }
}

=== FILE: js_values.dfy ===
/**
 * The JavaScript values a data row holds, and the few built-in conversions the
 * dashboard applies to them: `String(v)`, `toLowerCase`, `includes`, `trim` and
 * `Number(v)`. Numbers are modelled as integers.
 */
module JsValues {
  import opened Outcomes

  /** One cell of a `DataRow`: `string | number | null | undefined`. */
  datatype Cell = Str(s: string) | Num(i: int) | Null | Undef

  /** A `DataRow`: a record from column name to cell. A key may be present and hold `undefined`. */
  type Row = map<string, Cell>

  /** `null` or `undefined`: the values the sort comparator pushes to the end. */
  predicate IsMissing(c: Cell) {
    c.Null? || c.Undef?
  }

  /** `row[key]`: reading a key the row does not have yields `undefined`. */
  function KeyValue(row: Row, key: string): (c: Cell)
    ensures key !in row ==> c == Undef
    ensures key in row ==> c == row[key]
  {
    if key in row then row[key] else Undef
  }

  // ---------------------------------------------------------------------------
  // Decimal representation of integers

  predicate IsDigit(c: char) {
    '0' <= c <= '9'
  }

  predicate AllDigits(s: string) {
    forall i :: 0 <= i < |s| ==> IsDigit(s[i])
  }

  function DigitChar(d: nat): (c: char)
    requires d < 10
    ensures IsDigit(c) && c as int - '0' as int == d
  {
    ('0' as int + d) as char
  }

  /** The decimal digits of `n`, most significant first, without leading zeros. */
  function NatToString(n: nat): (s: string)
    ensures 1 <= |s| && AllDigits(s)
    ensures |s| > 1 ==> s[0] != '0'
    decreases n
  {
    if n < 10 then [DigitChar(n)] else NatToString(n / 10) + [DigitChar(n % 10)]
  }

  /** The value of a string of decimal digits. */
  function DigitsValue(s: string): nat
    requires AllDigits(s)
  {
    if s == [] then 0 else DigitsValue(s[..|s| - 1]) * 10 + (s[|s| - 1] as int - '0' as int)
  }

  /** Reading back the digits written by NatToString gives the number again. */
  lemma {:induction false} DigitsRoundTrip(n: nat)
    ensures DigitsValue(NatToString(n)) == n
    decreases n
  {
    if n >= 10 {
      DigitsRoundTrip(n / 10);
      var s := NatToString(n);
      assert s[..|s| - 1] == NatToString(n / 10);
    }
  }

  /** `String(n)` for an integer: an optional minus sign followed by decimal digits. */
  function IntToString(i: int): (s: string)
    ensures 1 <= |s|
    ensures forall k :: 0 <= k < |s| ==> IsDigit(s[k]) || s[k] == '-'
    ensures i >= 0 <==> AllDigits(s)
  {
    if i < 0 then
      var s := "-" + NatToString(-i);
      assert !IsDigit(s[0]);
      s
    else NatToString(i)
  }

  /** `String(value)`: `null` and `undefined` become the words "null" and "undefined". */
  function ToJsString(c: Cell): (s: string)
    ensures c.Null? ==> s == "null"
    ensures c.Undef? ==> s == "undefined"
    ensures c.Str? ==> s == c.s
  {
    match c
    case Str(s) => s
    case Num(i) => IntToString(i)
    case Null => "null"
    case Undef => "undefined"
  }

  /**
   * The property key a header cell names when it is used as `row[header]`. In
   * a header row `Undef` stands for a hole (a blank header cell, which the
   * sheet reader leaves out and `forEach` and `map` skip): it names no key.
   * Any other cell names its `String` form.
   */
  function HeaderKey(h: Cell): (k: Option<string>)
    ensures k.None? <==> h.Undef?
    ensures h.Str? ==> k == Some(h.s)
    ensures k.Some? ==> k.value == ToJsString(h)
  {
    if h.Undef? then None else Some(ToJsString(h))
  }

  /** A number header names the same key as the header spelled with its digits. */
  lemma NumberHeaderKey(i: int)
    ensures HeaderKey(Num(i)) == HeaderKey(Str(IntToString(i)))
  {
  }

  // ---------------------------------------------------------------------------
  // Lower case and substring search

  predicate IsUpper(c: char) {
    'A' <= c <= 'Z'
  }

  /** An upper-case letter becomes the lower-case letter 32 code points above it; anything else stays. */
  function LowerChar(c: char): (r: char)
    ensures !IsUpper(r)
    ensures !IsUpper(c) ==> r == c
    ensures IsUpper(c) ==> r as int == c as int - 'A' as int + 'a' as int
  {
    if IsUpper(c) then (c as int - 'A' as int + 'a' as int) as char else c
  }

  /** `s.toLowerCase()`, for the letters A to Z. */
  function ToLower(s: string): (r: string)
    ensures |r| == |s|
    ensures forall i :: 0 <= i < |r| ==> !IsUpper(r[i])
    ensures forall i :: 0 <= i < |s| && !IsUpper(s[i]) ==> r[i] == s[i]
    ensures forall i :: 0 <= i < |s| && IsUpper(s[i]) ==> r[i] as int == s[i] as int - 'A' as int + 'a' as int
  {
    seq(|s|, i requires 0 <= i < |s| => LowerChar(s[i]))
  }

  /** `c` and `d` are the same character, or one is a letter A to Z and the other its lower-case form. */
  predicate SameLetterIgnoringCase(c: char, d: char) {
    c == d ||
    (IsUpper(c) && d as int == c as int - 'A' as int + 'a' as int) ||
    (IsUpper(d) && c as int == d as int - 'A' as int + 'a' as int)
  }

  /** `a` and `b` spell the same text up to the case of the letters A to Z. */
  predicate SameIgnoringCase(a: string, b: string) {
    |a| == |b| && forall i :: 0 <= i < |a| ==> SameLetterIgnoringCase(a[i], b[i])
  }

  /**
   * Two texts lower-case to the same text exactly when they differ only in the
   * case of their letters: this is what makes the search case-insensitive.
   */
  lemma ToLowerIgnoresCase(a: string, b: string)
    ensures ToLower(a) == ToLower(b) <==> SameIgnoringCase(a, b)
  {
    if ToLower(a) == ToLower(b) {
      forall i | 0 <= i < |a| ensures SameLetterIgnoringCase(a[i], b[i]) {
        assert ToLower(a)[i] == ToLower(b)[i];
      }
    }
    if SameIgnoringCase(a, b) {
      forall i | 0 <= i < |a| ensures ToLower(a)[i] == ToLower(b)[i] {
        assert SameLetterIgnoringCase(a[i], b[i]);
      }
    }
  }

  /** `q` occurs in `s` starting at index `i`. */
  predicate OccursAt(s: string, q: string, i: nat) {
    i + |q| <= |s| && s[i..i + |q|] == q
  }

  /** `s.includes(q)`: `q` is a prefix of `s` or of one of its suffixes. */
  function Includes(s: string, q: string): (r: bool)
    ensures q <= s ==> r
    ensures r ==> |q| <= |s|
    decreases |s|
  {
    q <= s || (s != [] && Includes(s[1..], q))
  }

  /** `s.includes(q)` holds exactly when `q` occurs in `s` at some index. */
  lemma {:induction false} IncludesIffOccurs(s: string, q: string)
    ensures Includes(s, q) <==> exists i: nat :: OccursAt(s, q, i)
    decreases |s|
  {
    if q <= s {
      assert OccursAt(s, q, 0);
    } else if s == [] {
      assert forall i: nat :: !OccursAt(s, q, i);
    } else {
      IncludesIffOccurs(s[1..], q);
      assert forall i: nat :: OccursAt(s[1..], q, i) <==> OccursAt(s, q, i + 1);
      assert forall i: nat :: OccursAt(s, q, i) ==> i == 0 || OccursAt(s[1..], q, i - 1);
    }
  }

  // ---------------------------------------------------------------------------
  // Whitespace, trim and Number()

  /** The characters `String.prototype.trim` removes: WhiteSpace and LineTerminator of ECMAScript. */
  predicate IsJsWhitespace(c: char) {
    var n := c as int;
    n == 0x09 || n == 0x0A || n == 0x0B || n == 0x0C || n == 0x0D || n == 0x20 ||
    n == 0xA0 || n == 0x1680 || (0x2000 <= n <= 0x200A) || n == 0x2028 || n == 0x2029 ||
    n == 0x202F || n == 0x205F || n == 0x3000 || n == 0xFEFF
  }

  /** Every character of `s` is whitespace (vacuously so for ""). */
  predicate IsBlank(s: string) {
    forall i :: 0 <= i < |s| ==> IsJsWhitespace(s[i])
  }

  function TrimStart(s: string): (r: string)
    ensures |r| <= |s| && r == s[|s| - |r|..]
    ensures IsBlank(s[..|s| - |r|])
    ensures r != [] ==> !IsJsWhitespace(r[0])
  {
    if s != [] && IsJsWhitespace(s[0]) then
      var r := TrimStart(s[1..]);
      var k := |s| - |r|;
      assert s[..k] == [s[0]] + s[1..][..k - 1];
      assert s[1..][k - 1..] == s[k..];
      r
    else s
  }

  function TrimEnd(s: string): (r: string)
    ensures |r| <= |s| && r == s[..|r|]
    ensures IsBlank(s[|r|..])
    ensures r != [] ==> !IsJsWhitespace(r[|r| - 1])
  {
    if s != [] && IsJsWhitespace(s[|s| - 1]) then
      var init := s[..|s| - 1];
      var r := TrimEnd(init);
      assert s[|r|..] == init[|r|..] + [s[|s| - 1]];
      assert init[..|r|] == s[..|r|];
      r
    else s
  }

  /**
   * `s.trim()`: the slice of `s` left after dropping whitespace at both ends;
   * what is left has no whitespace at either end.
   */
  function Trim(s: string): (r: string)
    ensures |r| <= |s|
    ensures r != [] ==> !IsJsWhitespace(r[0]) && !IsJsWhitespace(r[|r| - 1])
    ensures exists i, j :: 0 <= i <= j <= |s| && r == s[i..j] && IsBlank(s[..i]) && IsBlank(s[j..])
  {
    var t := TrimStart(s);
    var r := TrimEnd(t);
    assert r != [] ==> r[0] == t[0];
    var i := |s| - |t|;
    var j := i + |r|;
    assert t == s[i..];
    assert r == s[i..j];
    assert s[j..] == t[|r|..];
    r
  }

  /** Trimming twice is trimming once. */
  lemma TrimIdempotent(s: string)
    ensures Trim(Trim(s)) == Trim(s)
  {
    if Trim(s) != [] {
      TrimNoEdgeWhitespace(Trim(s));
    }
  }

  /** `!text.trim()` holds exactly for the strings made only of whitespace. */
  lemma TrimEmptyIffBlank(s: string)
    ensures Trim(s) == "" <==> IsBlank(s)
  {
    var t := TrimStart(s);
    if Trim(s) == "" {
      assert IsBlank(t[0..]);
      assert s == s[..|s| - |t|] + t;
    } else {
      var r := Trim(s);
      assert r[0] == t[0];
      assert t[0] == s[|s| - |t|];
    }
  }

  /** A string with no whitespace at either end is left alone by trim. */
  lemma TrimNoEdgeWhitespace(s: string)
    requires s != [] && !IsJsWhitespace(s[0]) && !IsJsWhitespace(s[|s| - 1])
    ensures Trim(s) == s
  {
  }

  /** An optional sign followed by one or more decimal digits. */
  predicate SignedDigits(t: string) {
    (t != [] && AllDigits(t)) || (|t| > 1 && (t[0] == '-' || t[0] == '+') && AllDigits(t[1..]))
  }

  /**
   * `Number(text)` for a string: surrounding whitespace is ignored, the empty
   * string is 0, and an optional sign followed by decimal digits is that
   * integer. Everything else is `NaN`, written `None`.
   */
  function StringToNumber(text: string): (r: Option<int>)
    ensures IsBlank(text) ==> r == Some(0)
    ensures text != [] && AllDigits(text) ==> r == Some(DigitsValue(text))
    ensures |text| > 1 && text[0] == '-' && AllDigits(text[1..]) ==> r == Some(-(DigitsValue(text[1..]) as int))
    ensures |text| > 1 && text[0] == '+' && AllDigits(text[1..]) ==> r == Some(DigitsValue(text[1..]))
    ensures r.None? <==> !IsBlank(text) && !SignedDigits(Trim(text))
  {
    TrimEmptyIffBlank(text);
    if text != [] && AllDigits(text) then
      DigitsUntrimmed(text);
      TrimmedToNumber(Trim(text))
    else if |text| > 1 && (text[0] == '-' || text[0] == '+') && AllDigits(text[1..]) then
      SignedUntrimmed(text);
      TrimmedToNumber(Trim(text))
    else TrimmedToNumber(Trim(text))
  }

  /** A sign is not whitespace and neither is the last digit, so trim leaves a signed integer alone. */
  lemma SignedUntrimmed(text: string)
    requires |text| > 1 && (text[0] == '-' || text[0] == '+') && AllDigits(text[1..])
    ensures Trim(text) == text
  {
    assert IsDigit(text[1..][|text| - 2]);
    TrimNoEdgeWhitespace(text);
  }

  /** Digits are not whitespace, so trim leaves a string of digits alone. */
  lemma DigitsUntrimmed(text: string)
    requires text != [] && AllDigits(text)
    ensures Trim(text) == text
  {
    assert IsDigit(text[0]) && IsDigit(text[|text| - 1]);
    TrimNoEdgeWhitespace(text);
  }

  /** The conversion of the trimmed text. */
  function TrimmedToNumber(t: string): (r: Option<int>)
    ensures r.None? <==> t != "" && !SignedDigits(t)
  {
    if t == "" then Some(0)
    else if AllDigits(t) then Some(DigitsValue(t))
    else if |t| > 1 && t[0] == '-' && AllDigits(t[1..]) then Some(-(DigitsValue(t[1..]) as int))
    else if |t| > 1 && t[0] == '+' && AllDigits(t[1..]) then Some(DigitsValue(t[1..]))
    else None
  }

  /** `Number(value)` for a cell; `None` is `NaN`. */
  function ToNumber(c: Cell): (r: Option<int>)
    ensures c.Num? ==> r == Some(c.i)
    ensures c.Null? ==> r == Some(0)
    ensures c.Undef? ==> r == None
  {
    match c
    case Str(s) => StringToNumber(s)
    case Num(i) => Some(i)
    case Null => Some(0)
    case Undef => None
  }

  /** `Number(text)` of a string cell is the string conversion above. */
  lemma StringCellNumber(text: string)
    ensures ToNumber(Str(text)) == StringToNumber(text)
  {
  }

  /** `Number(String(n)) == n`: the decimal text of an integer converts back to it. */
  lemma NumberOfIntToString(i: int)
    ensures StringToNumber(IntToString(i)) == Some(i)
  {
    TrimIntToString(i);
    TrimmedNumberOfIntToString(i);
  }

  lemma TrimmedNumberOfIntToString(i: int)
    ensures TrimmedToNumber(IntToString(i)) == Some(i)
  {
    if i < 0 {
      NegativeNumberOfIntToString(i);
    } else {
      DigitsRoundTrip(i);
    }
  }

  lemma NegativeNumberOfIntToString(i: int)
    requires i < 0
    ensures TrimmedToNumber(IntToString(i)) == Some(i)
  {
    var s := IntToString(i);
    var d := NatToString(-i);
    assert s == "-" + d;
    assert s[0] == '-' && !IsDigit(s[0]);
    assert s[1..] == d;
    DigitsRoundTrip(-i);
  }

  lemma TrimIntToString(i: int)
    ensures Trim(IntToString(i)) == IntToString(i)
  {
    var s := IntToString(i);
    assert !IsJsWhitespace(s[0]);
    assert !IsJsWhitespace(s[|s| - 1]);
    TrimNoEdgeWhitespace(s);
  }
}

=== FILE: outcomes.dfy ===
/** Optional values and success-or-failure outcomes shared by the other modules. */
module Outcomes {

  /** A value that may be absent (a JavaScript `T | null` / `T | undefined`). */
  datatype Option<+T> = None | Some(value: T)

  /** The outcome of an operation that either yields a value or fails with an error. */
  datatype Result<+T, +E> = Success(value: T) | Failure(error: E)
}

=== FILE: pagination.dfy ===
/**
 * Page arithmetic shared by the table view (15 rows a page) and the product
 * grid (12 cards a page): `Math.ceil(n / size)` pages, and page `p` is
 * `rows.slice((p - 1) * size, (p - 1) * size + size)`.
 */
module Pagination {

  /** `ITEMS_PER_PAGE` of the table view. */
  const TablePageSize: nat := 15

  /** `ITEMS_PER_PAGE` of the product grid. */
  const GridPageSize: nat := 12

  function Min(a: int, b: int): int {
    if a <= b then a else b
  }

  function Max(a: int, b: int): int {
    if a <= b then b else a
  }

  /**
   * `k * size`, by repeated addition, so that the page arithmetic below stays
   * linear; `TimesIsProduct` shows it is the product.
   */
  function Times(k: int, size: nat): (r: int)
    ensures k >= 0 ==> r >= 0
    decreases if k < 0 then -k else k
  {
    if k == 0 then 0
    else if k > 0 then Times(k - 1, size) + size
    else Times(k + 1, size) - size
  }

  /** `Math.ceil(n / size)`: the fewest pages of `size` rows that hold `n` rows; 0 when there are none. */
  function TotalPages(n: nat, size: nat): (r: nat)
    requires size > 0
    ensures Times(r, size) >= n
    ensures r > 0 ==> Times(r - 1, size) < n
    ensures r == 0 <==> n == 0
    decreases n
  {
    if n == 0 then 0
    else if n <= size then 1
    else 1 + TotalPages(n - size, size)
  }

  /**
   * An index argument of `Array.prototype.slice`, made absolute: a negative
   * index counts from the end, and the result is clamped to `0..len`.
   */
  function SliceIndex(i: int, len: nat): (r: nat)
    ensures r <= len
    ensures 0 <= i ==> r == Min(i, len)
    ensures i < 0 ==> r == Max(len + i, 0)
  {
    if i < 0 then (if len + i < 0 then 0 else len + i)
    else if i < len then i else len
  }

  /** `s.slice(start, end)`: the elements from the first absolute index up to the second, or none. */
  function Slice<T>(s: seq<T>, start: int, end: int): (r: seq<T>)
    ensures |r| <= |s|
    ensures var from, to := SliceIndex(start, |s|), SliceIndex(end, |s|);
            r == if from < to then s[from..to] else []
  {
    var from, to := SliceIndex(start, |s|), SliceIndex(end, |s|);
    if from < to then s[from..to] else []
  }

  /** `paginatedData` for page `page`: the slice of `size` rows from `(page - 1) * size` on, so at most `size` rows. */
  function PageOf<T>(rows: seq<T>, page: int, size: nat): (r: seq<T>)
    requires size > 0
    ensures |r| <= size
  {
    var startIndex := Times(page - 1, size);
    Slice(rows, startIndex, startIndex + size)
  }

  /** Page `page` (from 1 on) is the rows from `(page - 1) * size` up to `page * size`, cut at the end of the rows. */
  lemma PageOfSlice<T>(rows: seq<T>, page: int, size: nat)
    requires size > 0 && page >= 1
    ensures PageOf(rows, page, size) == rows[Min(Times(page - 1, size), |rows|)..Min(Times(page, size), |rows|)]
  {
    TimesMonotone(0, page - 1, size);
  }

  /** Every page from 1 to `TotalPages` has a row. */
  lemma PageOfNonEmpty<T>(rows: seq<T>, page: int, size: nat)
    requires size > 0
    requires 1 <= page <= TotalPages(|rows|, size)
    ensures PageOf(rows, page, size) != []
  {
    var t := TotalPages(|rows|, size);
    TimesMonotone(page - 1, t - 1, size);
    PageOfSlice(rows, page, size);
  }

  /** A page past `TotalPages` is empty. */
  lemma PageOfPastEnd<T>(rows: seq<T>, page: int, size: nat)
    requires size > 0
    requires page > TotalPages(|rows|, size)
    ensures PageOf(rows, page, size) == []
  {
    var t := TotalPages(|rows|, size);
    TimesMonotone(t, page - 1, size);
    PageOfSlice(rows, page, size);
  }

  /** Pages 1 to `k`, one after the other. */
  function PagesUpTo<T>(rows: seq<T>, size: nat, k: nat): seq<T>
    requires size > 0
  {
    if k == 0 then [] else PagesUpTo(rows, size, k - 1) + PageOf(rows, k, size)
  }

  /** The first `k` pages are the first `k * size` rows (or all of them). */
  lemma {:induction false} PagesUpToPrefix<T>(rows: seq<T>, size: nat, k: nat)
    requires size > 0
    ensures PagesUpTo(rows, size, k) == rows[..Min(Times(k, size), |rows|)]
  {
    if k > 0 {
      PagesUpToPrefix(rows, size, k - 1);
      PageOfSlice(rows, k, size);
      TimesMonotone(k - 1, k, size);
      var a, b := Min(Times(k - 1, size), |rows|), Min(Times(k, size), |rows|);
      assert PagesUpTo(rows, size, k) == rows[..a] + rows[a..b];
      assert rows[..a] + rows[a..b] == rows[..b];
    }
  }

  /** Pages 1 to `TotalPages` together hold every row exactly once, in order. */
  lemma PagesCoverRows<T>(rows: seq<T>, size: nat)
    requires size > 0
    ensures PagesUpTo(rows, size, TotalPages(|rows|, size)) == rows
  {
    PagesUpToPrefix(rows, size, TotalPages(|rows|, size));
  }

  /** Row `i` is shown on page `i / size + 1`, at position `i % size`. */
  lemma PageOfIndex<T>(rows: seq<T>, size: nat, i: nat)
    requires size > 0 && i < |rows|
    ensures 1 <= i / size + 1 <= TotalPages(|rows|, size)
    ensures i % size < |PageOf(rows, i / size + 1, size)|
    ensures PageOf(rows, i / size + 1, size)[i % size] == rows[i]
  {
    DivFacts(i, size);
    PageOfPosition(rows, size, i / size, i % size);
  }

  /** The row at offset `q` past `p` full pages is on page `p + 1`, at position `q`. */
  lemma PageOfPosition<T>(rows: seq<T>, size: nat, p: nat, q: nat)
    requires size > 0 && q < size && Times(p, size) + q < |rows|
    ensures 1 <= p + 1 <= TotalPages(|rows|, size)
    ensures q < |PageOf(rows, p + 1, size)|
    ensures PageOf(rows, p + 1, size)[q] == rows[Times(p, size) + q]
  {
    var t := TotalPages(|rows|, size);
    if t < p + 1 {
      TimesMonotone(t, p, size);
      assert false;
    }
    PageOfSlice(rows, p + 1, size);
  }

  // ---------------------------------------------------------------------------
  // Arithmetic

  /** `Times` is multiplication. */
  lemma {:induction false} TimesIsProduct(k: int, size: nat)
    ensures Times(k, size) == k * size
    decreases if k < 0 then -k else k
  {
    if k > 0 {
      TimesIsProduct(k - 1, size);
      assert (k - 1) * size + size == k * size;
    } else if k < 0 {
      TimesIsProduct(k + 1, size);
      assert (k + 1) * size - size == k * size;
    }
  }

  /** `Times` grows with its first argument. */
  lemma {:induction false} TimesMonotone(a: int, b: int, size: nat)
    requires 0 <= a <= b
    ensures 0 <= Times(a, size) <= Times(b, size)
    decreases b - a
  {
    if a < b {
      TimesMonotone(a, b - 1, size);
    } else {
      TimesIsProduct(a, size);
    }
  }

  /** Quotient and remainder of a row index, in terms of `Times`. */
  lemma DivFacts(i: nat, size: nat)
    requires size > 0
    ensures 0 <= i / size && 0 <= i % size < size
    ensures i == Times(i / size, size) + i % size
  {
    TimesIsProduct(i / size, size);
  }

  /** The number of pages is the source's `Math.ceil(n / size)`, that is `(n + size - 1) / size` in whole numbers. */
  lemma {:induction false} TotalPagesIsCeiling(n: nat, size: nat)
    requires size > 0
    ensures TotalPages(n, size) == (n + size - 1) / size
    decreases n
  {
    if n == 0 {
      DivUnique(size - 1, size, 0);
    } else if n <= size {
      DivUnique(n + size - 1, size, 1);
    } else {
      TotalPagesIsCeiling(n - size, size);
      DivShift(n - 1, size);
    }
  }

  /** `x / size == q` when `x` lies in the `q`-th block of `size`. */
  lemma DivUnique(x: int, size: nat, q: int)
    requires size > 0 && q * size <= x < q * size + size
    ensures x / size == q
  {
    var d, m := x / size, x % size;
    assert x == d * size + m && 0 <= m < size;
    BlockOrder(d, q, size);
    BlockOrder(q, d, size);
  }

  /** A block that starts before the end of block `b` is not after it. */
  lemma BlockOrder(a: int, b: int, size: nat)
    requires size > 0 && a * size < b * size + size
    ensures a <= b
  {
    assert (b + 1) * size == b * size + size;
    if a > b {
      MulLe(b + 1, a, size);
      assert false;
    }
  }

  /** Multiplying by a size keeps the order. */
  lemma MulLe(a: int, b: int, size: nat)
    requires a <= b
    ensures a * size <= b * size
  {
    var k := b - a;
    assert k * size >= 0;
    assert b * size == a * size + k * size;
  }

  /** Adding `size` adds one to the quotient. */
  lemma DivShift(x: nat, size: nat)
    requires size > 0
    ensures (x + size) / size == x / size + 1
  {
    DivUnique(x + size, size, x / size + 1);
  }
}

=== FILE: product_grid.dfy ===
/**
 * The product grid: guessing which column holds a card's image, name, price,
 * category and stock from the column names, the fields and stock badge of one
 * card, and the grid's current page.
 */
module ProductGridView {
  import opened Outcomes
  import opened JsValues
  import opened Pagination

  // ---------------------------------------------------------------------------
  // Column roles

  /** `header.toLowerCase().replace(/_/g, ' ')`. */
  function NormalizeHeader(header: string): (r: string)
    ensures |r| == |header|
    ensures forall i :: 0 <= i < |r| ==> r[i] != '_' && !IsUpper(r[i])
    ensures forall i :: 0 <= i < |r| && header[i] != '_' ==> r[i] == LowerChar(header[i])
    ensures forall i :: 0 <= i < |r| && header[i] == '_' ==> r[i] == ' '
  {
    seq(|header|, i requires 0 <= i < |header| => if header[i] == '_' then ' ' else LowerChar(header[i]))
  }

  /** `keywords.some(kw => normalized.includes(kw))`. */
  predicate HeaderMatches(header: string, keywords: seq<string>) {
    exists k :: 0 <= k < |keywords| && Includes(NormalizeHeader(header), keywords[k])
  }

  /** A header cell names a key and some keyword matches that key. */
  predicate KeyMatches(header: Cell, keywords: seq<string>) {
    HeaderKey(header).Some? && HeaderMatches(HeaderKey(header).value, keywords)
  }

  /**
   * `findKey(headers, keywords)` as the column-name cast intends it: the key of
   * the first header cell, in order, that some keyword matches. A hole names
   * no key and is passed over; a number is matched by its digits.
   */
  function FindKey(headers: seq<Cell>, keywords: seq<string>): (r: Option<string>)
    ensures r.None? <==> forall i :: 0 <= i < |headers| ==> !KeyMatches(headers[i], keywords)
    ensures r.Some? ==> exists i :: 0 <= i < |headers| && HeaderKey(headers[i]) == r &&
                                   KeyMatches(headers[i], keywords) &&
                                   forall j :: 0 <= j < i ==> !KeyMatches(headers[j], keywords)
  {
    if headers == [] then None
    else if KeyMatches(headers[0], keywords) then HeaderKey(headers[0])
    else
      var r := FindKey(headers[1..], keywords);
      assert forall i :: 1 <= i < |headers| ==> headers[i] == headers[1..][i - 1];
      r
  }

  /** What `header.toLowerCase()` throws when the header is not a string. */
  const HeaderNotAString := "TypeError: header.toLowerCase is not a function"

  /**
   * `findKey(headers, keywords)` as written: `find` visits every header cell,
   * holes included, and calls `toLowerCase` on it as soon as there is a
   * keyword, so a header that is not a string before the first match throws.
   */
  function FindKeyAsWritten(headers: seq<Cell>, keywords: seq<string>): (r: Result<Option<string>, string>)
    ensures r.Failure? ==> keywords != [] &&
                           (exists i :: 0 <= i < |headers| && !headers[i].Str? &&
                              forall j :: 0 <= j < i ==> !KeyMatches(headers[j], keywords))
    ensures r.Success? ==> r.value == FindKey(headers, keywords)
    ensures (keywords == [] || forall i :: 0 <= i < |headers| ==> headers[i].Str?) ==> r.Success?
  {
    if headers == [] then Success(None)
    else if !headers[0].Str? && keywords != [] then Failure(HeaderNotAString)
    else if KeyMatches(headers[0], keywords) then Success(HeaderKey(headers[0]))
    else
      var r := FindKeyAsWritten(headers[1..], keywords);
      assert forall i :: 1 <= i < |headers| ==> headers[i] == headers[1..][i - 1];
      r
  }

  const ImageKeywords: seq<string> := ["image", "img", "picture", "url"]
  const NameKeywords: seq<string> := ["name", "title", "product"]
  const PriceKeywords: seq<string> := ["price", "cost", "amount"]
  const CategoryKeywords: seq<string> := ["category", "type"]
  const StockKeywords: seq<string> := ["stock", "inventory", "quantity"]

  /**
   * A number or a blank cell in the header row before the name column makes
   * the lookup as written throw, where the intended lookup passes the blank
   * cell over and finds the name column.
   */
  lemma NonStringHeaderThrows()
    ensures FindKeyAsWritten([Num(2024), Str("name")], NameKeywords).Failure?
    ensures FindKeyAsWritten([Undef, Str("name")], NameKeywords).Failure?
    ensures FindKey([Undef, Str("name")], NameKeywords) == Some("name")
  {
    assert NormalizeHeader("name") == "name";
    assert Includes("name", NameKeywords[0]);
    assert KeyMatches(Str("name"), NameKeywords);
    assert [Undef, Str("name")][1..] == [Str("name")];
  }

  /** A found header is never the empty string when every keyword is non-empty. */
  lemma FoundKeyNonEmpty(headers: seq<Cell>, keywords: seq<string>)
    requires forall k :: 0 <= k < |keywords| ==> keywords[k] != ""
    requires FindKey(headers, keywords).Some?
    ensures FindKey(headers, keywords).value != ""
  {
  }

  // ---------------------------------------------------------------------------
  // One card

  /** JavaScript truthiness of a cell: `""`, `0`, `null` and `undefined` are false, everything else true. */
  function Truthy(c: Cell): (r: bool)
    ensures r <==> !IsMissing(c) && c != Str("") && c != Num(0)
  {
    match c
    case Str(s) => s != ""
    case Num(i) => i != 0
    case Null => false
    case Undef => false
  }

  /** `key ? row[key] : fallback`, where the key is a possibly missing column name. */
  function FieldOf(row: Row, key: Option<string>, fallback: Cell): (c: Cell)
    ensures key.None? ==> c == fallback
    ensures key.Some? && key.value != "" ==> c == KeyValue(row, key.value)
  {
    if key.Some? && key.value != "" then KeyValue(row, key.value) else fallback
  }

  /** The values a `ProductCard` shows. */
  datatype Card = Card(imageUrl: Cell, name: Cell, price: Cell, category: Cell, stock: Cell)

  /** The card for a row: each field from its column when one is found, `null` otherwise, and a default name. */
  function CardOf(row: Row, headers: seq<Cell>): (card: Card)
    ensures FindKey(headers, NameKeywords).None? ==> card.name == Str("Unnamed Product")
    ensures FindKey(headers, StockKeywords).None? ==> card.stock == Null
  {
    Card(FieldOf(row, FindKey(headers, ImageKeywords), Null),
         FieldOf(row, FindKey(headers, NameKeywords), Str("Unnamed Product")),
         FieldOf(row, FindKey(headers, PriceKeywords), Null),
         FieldOf(row, FindKey(headers, CategoryKeywords), Null),
         FieldOf(row, FindKey(headers, StockKeywords), Null))
  }

  /** The name is the row's value under the first name-like column, or "Unnamed Product" when there is none. */
  lemma CardName(row: Row, headers: seq<Cell>)
    ensures var key := FindKey(headers, NameKeywords);
            CardOf(row, headers).name == if key.Some? then KeyValue(row, key.value) else Str("Unnamed Product")
  {
    var key := FindKey(headers, NameKeywords);
    if key.Some? {
      assert forall k :: 0 <= k < |NameKeywords| ==> NameKeywords[k] != "";
      FoundKeyNonEmpty(headers, NameKeywords);
    }
  }

  /** `s.startsWith(prefix)`. */
  predicate StartsWith(s: string, prefix: string) {
    prefix <= s
  }

  /**
   * The picture is shown only for a truthy string that starts with "http" or
   * "data:"; the truthiness test adds nothing, since such a string is not empty.
   */
  function ShowsImage(card: Card): (r: bool)
    ensures r <==> card.imageUrl.Str? &&
                   (StartsWith(card.imageUrl.s, "http") || StartsWith(card.imageUrl.s, "data:"))
  {
    Truthy(card.imageUrl) && card.imageUrl.Str? &&
    (StartsWith(card.imageUrl.s, "http") || StartsWith(card.imageUrl.s, "data:"))
  }

  /**
   * The category line is shown when the category is truthy: exactly when it
   * is present and neither the empty string nor the number 0.
   */
  function ShowsCategory(card: Card): (r: bool)
    ensures r ==> !IsMissing(card.category)
    ensures card.category == Str("") || card.category == Num(0) ==> !r
    ensures r <==> !IsMissing(card.category) && card.category != Str("") && card.category != Num(0)
  {
    Truthy(card.category)
  }

  /** Without an image column there is no picture, and without a category column no category line. */
  lemma MissingColumnsHidden(row: Row, headers: seq<Cell>)
    ensures FindKey(headers, ImageKeywords).None? ==> !ShowsImage(CardOf(row, headers))
    ensures FindKey(headers, CategoryKeywords).None? ==> !ShowsCategory(CardOf(row, headers))
  {
  }

  // ---------------------------------------------------------------------------
  // The stock badge

  /** The badge colours: green, yellow, red. */
  datatype Tone = Green | Yellow | Red

  datatype StockBadge = StockBadge(tone: Tone, caption: string)

  /**
   * The stock badge: absent when the stock is `null` or not a number; green
   * above 10, yellow above 0, red otherwise; labelled with the stock and
   * "in stock" when positive, "Out of stock" otherwise.
   */
  function StockBadgeOf(stock: Cell): (r: Option<StockBadge>)
    ensures r.None? <==> stock.Null? || ToNumber(stock).None?
    ensures r.Some? ==> (r.value.tone == Green <==> ToNumber(stock).value > 10)
    ensures r.Some? ==> (r.value.tone == Yellow <==> 0 < ToNumber(stock).value <= 10)
    ensures r.Some? ==> (r.value.tone == Red <==> ToNumber(stock).value <= 0)
  {
    if stock.Null? then None
    else match ToNumber(stock)
      case None => None
      case Some(n) =>
        var tone := if n > 10 then Green else if n > 0 then Yellow else Red;
        var caption := if n > 0 then ToJsString(stock) + " in stock" else "Out of stock";
        Some(StockBadge(tone, caption))
  }

  /** The badge is red exactly when it reads "Out of stock", and otherwise reads "<stock> in stock". */
  lemma StockBadgeConsistent(stock: Cell)
    requires StockBadgeOf(stock).Some?
    ensures var b := StockBadgeOf(stock).value;
            (b.tone == Red <==> b.caption == "Out of stock") &&
            (b.tone != Red ==> b.caption == ToJsString(stock) + " in stock")
  {
    InStockDiffers(ToJsString(stock));
  }

  /** No stock text makes the positive caption read "Out of stock". */
  lemma InStockDiffers(s: string)
    ensures s + " in stock" != "Out of stock"
  {
    var t := s + " in stock";
    if |t| == |"Out of stock"| {
      assert t[4] == 'i';
    }
  }

  /** A number cell shows its badge, with the tone fixed by the thresholds 10 and 0. */
  lemma NumberStockBadge(n: int)
    ensures StockBadgeOf(Num(n)).Some?
    ensures StockBadgeOf(Num(n)).value.tone == (if n > 10 then Green else if n > 0 then Yellow else Red)
  {
  }

  /** A cell whose key is absent from the row (`undefined`) shows no badge, and neither does `null`. */
  lemma MissingStockHasNoBadge(stock: Cell)
    requires IsMissing(stock)
    ensures StockBadgeOf(stock).None?
  {
  }

  // ---------------------------------------------------------------------------
  // The grid's page

  /**
   * Page `p` of the grid's rows: at most 12, from page 1 on the slice from the
   * page's offset, empty past the last page and non-empty on a page that exists.
   */
  function GridPage(rows: seq<Row>, p: int): (page: seq<Row>)
    ensures page == PageOf(rows, p, GridPageSize)
    ensures |page| <= GridPageSize
    ensures p >= 1 ==> forall k :: 0 <= k < |page| ==>
              Times(p - 1, GridPageSize) + k < |rows| && page[k] == rows[Times(p - 1, GridPageSize) + k]
    ensures p > TotalPages(|rows|, GridPageSize) ==> page == []
    ensures 1 <= p <= TotalPages(|rows|, GridPageSize) ==> page != []
  {
    var page := PageOf(rows, p, GridPageSize);
    if p < 1 then page
    else if p > TotalPages(|rows|, GridPageSize) then
      PageOfPastEnd(rows, p, GridPageSize);
      page
    else
      PageOfSlice(rows, p, GridPageSize);
      PageOfNonEmpty(rows, p, GridPageSize);
      page
  }

  /**
   * The grid over the rows it is shown (already filtered and sorted by the
   * dashboard) and the dashboard's search text, with its own current page.
   * A render and the page-reset effect that follows it are separate steps:
   * `ReceiveProps` is the render with new props, `ResetEffect` the effect.
   */
  class ProductGrid {
    var headers: seq<Cell>
    var data: seq<Row>
    var filter: string
    var currentPage: int
    /** The dependencies `[filter, data.length]` the page-reset effect last ran with. */
    var seenFilter: string
    var seenCount: nat

    /** `totalPages` at 12 cards a page: none without rows, and just enough pages to hold every row. */
    function TotalPages(): (r: nat)
      reads this
      ensures r == 0 <==> data == []
      ensures Times(r, GridPageSize) >= |data|
      ensures r > 0 ==> Times(r - 1, GridPageSize) < |data|
    {
      Pagination.TotalPages(|data|, GridPageSize)
    }

    /** The page-reset effect has run for the current search text and row count. */
    ghost predicate Settled()
      reads this
    {
      seenFilter == filter && seenCount == |data|
    }

    /** The current page is page 1 or a page that exists for the row count the effect last saw. */
    ghost predicate Valid()
      reads this
    {
      currentPage >= 1 && (currentPage == 1 || currentPage <= Pagination.TotalPages(seenCount, GridPageSize))
    }

    /** The first render, followed by the effect's first run, which leaves page 1. */
    constructor (headers: seq<Cell>, data: seq<Row>, filter: string)
      ensures this.headers == headers && this.data == data && this.filter == filter
      ensures currentPage == 1
      ensures Settled() && Valid()
    {
      this.headers := headers;
      this.data := data;
      this.filter := filter;
      currentPage := 1;
      seenFilter := filter;
      seenCount := |data|;
    }

    /**
     * `paginatedData` in any render, including the one where new rows have
     * arrived and the reset effect has not run yet: the current page's slice
     * of the current rows, at most 12, empty when the page is past the last
     * one, and some rows whenever there are rows once the effect has run.
     */
    function PaginatedData(): (page: seq<Row>)
      reads this
      ensures page == PageOf(data, currentPage, GridPageSize)
      ensures |page| <= GridPageSize
      ensures currentPage >= 1 ==> forall k :: 0 <= k < |page| ==>
                Times(currentPage - 1, GridPageSize) + k < |data| &&
                page[k] == data[Times(currentPage - 1, GridPageSize) + k]
      ensures currentPage > TotalPages() ==> page == []
      ensures Valid() && Settled() && data != [] ==> page != []
    {
      GridPage(data, currentPage)
    }

    /** A render with new props from the dashboard: the page stays as it is until the effect runs. */
    method ReceiveProps(headers: seq<Cell>, data: seq<Row>, filter: string)
      requires Valid()
      modifies this`headers, this`data, this`filter
      ensures this.headers == headers && this.data == data && this.filter == filter
      ensures Valid()
    {
      this.headers := headers;
      this.data := data;
      this.filter := filter;
    }

    /**
     * The effect `setCurrentPage(1)` with dependencies `[filter, data.length]`:
     * when the search text or the row count differs from the last run, the
     * page goes back to 1; otherwise it stays.
     */
    method ResetEffect()
      requires Valid()
      modifies this`currentPage, this`seenFilter, this`seenCount
      ensures filter != old(seenFilter) || |data| != old(seenCount) ==> currentPage == 1
      ensures filter == old(seenFilter) && |data| == old(seenCount) ==> currentPage == old(currentPage)
      ensures Settled() && Valid()
    {
      if filter != seenFilter || |data| != seenCount {
        currentPage := 1;
      }
      seenFilter := filter;
      seenCount := |data|;
    }

    /**
     * New props followed by the effect: the page goes back to 1 when the
     * search text or the number of rows changed, and stays otherwise.
     */
    method Rerender(headers: seq<Cell>, data: seq<Row>, filter: string)
      requires Valid() && Settled()
      modifies this`headers, this`data, this`filter, this`currentPage, this`seenFilter, this`seenCount
      ensures this.headers == headers && this.data == data && this.filter == filter
      ensures filter != old(this.filter) || |data| != |old(this.data)| ==> currentPage == 1
      ensures filter == old(this.filter) && |data| == |old(this.data)| ==> currentPage == old(currentPage)
      ensures Settled() && Valid()
    {
      ReceiveProps(headers, data, filter);
      ResetEffect();
    }

    /**
     * `handlePageChange(page)`, from a click, which comes after the last
     * render's effects have run: move to the page when it exists, otherwise stay.
     */
    method HandlePageChange(page: int)
      requires Valid() && Settled()
      modifies this`currentPage
      ensures 1 <= page <= TotalPages() ==> currentPage == page
      ensures !(1 <= page <= TotalPages()) ==> currentPage == old(currentPage)
      ensures Settled() && Valid()
    {
      if page >= 1 && page <= TotalPages() {
        currentPage := page;
      }
    }
  }
}

=== FILE: prompt_format.dfy ===
/**
 * `formatDataForPrompt`: the CSV-like sample of the rows sent along with the
 * analysis request. The first line is the header row joined by commas (a
 * blank header cell, a hole, is written as an empty field); then come up to
 * 20 rows, one line each, with one field per header cell in column order. A string field holding a comma is wrapped in double quotes
 * (inner quotes are left as they are); `null` and `undefined` become empty
 * fields.
 *
 * Two readers serve as the partners of the writer: `Split`, which cuts a
 * text at every separator, and `ParseLine`, which cuts a line at the commas
 * outside double quotes and drops the quotes.
 */
module PromptFormat {
  import opened JsValues

  /** `previewRowCount` is at most 20. */
  const PreviewRowLimit: nat := 20

  /** `parts.join(sep)` for a one-character separator. */
  function Join(parts: seq<string>, sep: char): (r: string)
    ensures parts == [] ==> r == ""
    ensures |parts| >= 1 ==> parts[0] <= r
    ensures |parts| >= 2 ==> |r| > |parts[0]| && r[|parts[0]|] == sep
    decreases |parts|
  {
    if |parts| == 0 then ""
    else if |parts| == 1 then parts[0]
    else parts[0] + [sep] + Join(parts[1..], sep)
  }

  /** A joined text holds a character only if some part holds it or it is the separator. */
  lemma {:induction false} JoinAvoids(parts: seq<string>, sep: char, c: char)
    requires c != sep
    requires forall i :: 0 <= i < |parts| ==> c !in parts[i]
    ensures c !in Join(parts, sep)
    decreases |parts|
  {
    if |parts| > 1 {
      JoinAvoids(parts[1..], sep, c);
    }
  }

  // ---------------------------------------------------------------------------
  // Reading a separated text back

  /** The pieces of `s` between the separators, the first one continuing `cur`. */
  function SplitFrom(s: string, cur: string, sep: char): (r: seq<string>)
    ensures |r| >= 1
    decreases |s|
  {
    if s == [] then [cur]
    else if s[0] == sep then [cur] + SplitFrom(s[1..], "", sep)
    else SplitFrom(s[1..], cur + [s[0]], sep)
  }

  /** `s.split(sep)`. */
  function Split(s: string, sep: char): (r: seq<string>)
    ensures |r| >= 1
  {
    SplitFrom(s, "", sep)
  }

  /** Text without the separator is read into the current piece. */
  lemma {:induction false} SplitSkip(a: string, rest: string, cur: string, sep: char)
    requires sep !in a
    ensures SplitFrom(a + rest, cur, sep) == SplitFrom(rest, cur + a, sep)
    decreases |a|
  {
    if a != [] {
      assert (a + rest)[0] == a[0];
      assert (a + rest)[1..] == a[1..] + rest;
      SplitSkip(a[1..], rest, cur + [a[0]], sep);
      assert cur + [a[0]] + a[1..] == cur + a;
    } else {
      assert a + rest == rest && cur + a == cur;
    }
  }

  /** Splitting at the separator undoes joining with it, when no part holds the separator. */
  lemma {:induction false} SplitJoin(parts: seq<string>, sep: char)
    requires |parts| >= 1
    requires forall i :: 0 <= i < |parts| ==> sep !in parts[i]
    ensures Split(Join(parts, sep), sep) == parts
    decreases |parts|
  {
    if |parts| == 1 {
      SplitSkip(parts[0], "", "", sep);
      assert parts[0] + "" == parts[0];
      assert "" + parts[0] == parts[0];
    } else {
      var j := Join(parts[1..], sep);
      assert Join(parts, sep) == parts[0] + ([sep] + j);
      SplitSkip(parts[0], [sep] + j, "", sep);
      assert "" + parts[0] == parts[0];
      assert ([sep] + j)[1..] == j;
      SplitJoin(parts[1..], sep);
      assert parts == [parts[0]] + parts[1..];
    }
  }

  /**
   * The fields of a line: commas outside double quotes separate fields, and
   * the double quotes themselves are dropped. `quoted` says whether the
   * reader is inside quotes.
   */
  function ParseFrom(s: string, cur: string, quoted: bool): (r: seq<string>)
    ensures |r| >= 1
    decreases |s|
  {
    if s == [] then [cur]
    else if s[0] == '"' then ParseFrom(s[1..], cur, !quoted)
    else if s[0] == ',' && !quoted then [cur] + ParseFrom(s[1..], "", false)
    else ParseFrom(s[1..], cur + [s[0]], quoted)
  }

  function ParseLine(line: string): (r: seq<string>)
    ensures |r| >= 1
  {
    ParseFrom(line, "", false)
  }

  /** Text without quotes (and, outside quotes, without commas) is read into the current field. */
  lemma {:induction false} ParseSkip(a: string, rest: string, cur: string, quoted: bool)
    requires '"' !in a
    requires !quoted ==> ',' !in a
    ensures ParseFrom(a + rest, cur, quoted) == ParseFrom(rest, cur + a, quoted)
    decreases |a|
  {
    if a != [] {
      assert (a + rest)[0] == a[0];
      assert (a + rest)[1..] == a[1..] + rest;
      ParseSkip(a[1..], rest, cur + [a[0]], quoted);
      assert cur + [a[0]] + a[1..] == cur + a;
    } else {
      assert a + rest == rest && cur + a == cur;
    }
  }

  // ---------------------------------------------------------------------------
  // Writing one field

  /** `s.includes(",")` holds exactly when the comma is one of the characters of `s`. */
  lemma IncludesComma(s: string)
    ensures Includes(s, ",") <==> ',' in s
  {
    IncludesIffOccurs(s, ",");
    if ',' in s {
      var i :| 0 <= i < |s| && s[i] == ',';
      assert OccursAt(s, ",", i);
    }
    if Includes(s, ",") {
      var i: nat :| OccursAt(s, ",", i);
      assert s[i..i + 1][0] == s[i];
    }
  }

  /**
   * The text a cell contributes to a row line: a string with a comma in
   * double quotes, any other string as it is, a number in decimal, and
   * nothing for `null` and `undefined` (which `join` writes as empty).
   */
  function FieldText(c: Cell): (r: string)
    ensures c.Null? || c.Undef? ==> r == ""
    ensures c.Str? && ',' !in c.s ==> r == c.s
    ensures c.Str? && ',' in c.s ==> r == "\"" + c.s + "\""
  {
    match c
    case Str(s) =>
      IncludesComma(s);
      if Includes(s, ",") then "\"" + s + "\"" else s
    case Num(i) => IntToString(i)
    case Null => ""
    case Undef => ""
  }

  /** What a reader gets back for a cell: the string itself, the decimal digits, or an empty field. */
  function CellText(c: Cell): string {
    match c
    case Str(s) => s
    case Num(i) => IntToString(i)
    case Null => ""
    case Undef => ""
  }

  /** The cell cannot confuse a reader: a string cell holds neither a double quote nor a line break. */
  predicate Plain(c: Cell) {
    c.Str? ==> '"' !in c.s && '\n' !in c.s
  }

  /** Reading a written field, followed by anything, gives back the cell's text. */
  lemma ParseField(c: Cell, rest: string, cur: string)
    requires Plain(c)
    ensures ParseFrom(FieldText(c) + rest, cur, false) == ParseFrom(rest, cur + CellText(c), false)
  {
    match c
    case Str(s) =>
      if ',' in s {
        var t := FieldText(c) + rest;
        assert t == "\"" + (s + ("\"" + rest));
        assert t[1..] == s + ("\"" + rest);
        ParseSkip(s, "\"" + rest, cur, true);
        assert ("\"" + rest)[1..] == rest;
      } else {
        ParseSkip(s, rest, cur, false);
      }
    case Num(i) =>
      ParseSkip(IntToString(i), rest, cur, false);
    case Null =>
      assert "" + rest == rest && cur + "" == cur;
    case Undef =>
      assert "" + rest == rest && cur + "" == cur;
  }

  /** A written field never holds a line break. */
  lemma FieldTextNoNewline(c: Cell)
    requires Plain(c)
    ensures '\n' !in FieldText(c)
  {
    if c.Num? {
      var s := IntToString(c.i);
      assert forall k :: 0 <= k < |s| ==> s[k] != '\n';
    }
  }

  // ---------------------------------------------------------------------------
  // Rows and the whole sample

  /**
   * The value `headers.map(header => row[header])` holds for one header cell:
   * the row's value under the key the cell names, or `undefined` for a hole,
   * which `map` skips and leaves a hole.
   */
  function ValueUnder(row: Row, header: Cell): (c: Cell)
    ensures header.Undef? ==> c == Undef
    ensures header.Str? ==> c == KeyValue(row, header.s)
    ensures !header.Undef? ==> c == KeyValue(row, ToJsString(header))
  {
    match HeaderKey(header)
    case None => Undef
    case Some(key) => KeyValue(row, key)
  }

  /** `headers.map(header => row[header])`. */
  function RowCells(row: Row, headers: seq<Cell>): (r: seq<Cell>)
    ensures |r| == |headers|
    ensures forall j :: 0 <= j < |headers| ==> r[j] == ValueUnder(row, headers[j])
  {
    seq(|headers|, j requires 0 <= j < |headers| => ValueUnder(row, headers[j]))
  }

  function FieldTexts(cells: seq<Cell>): (r: seq<string>)
    ensures |r| == |cells|
    ensures forall j :: 0 <= j < |cells| ==> r[j] == FieldText(cells[j])
  {
    seq(|cells|, j requires 0 <= j < |cells| => FieldText(cells[j]))
  }

  function CellTexts(cells: seq<Cell>): (r: seq<string>)
    ensures |r| == |cells|
    ensures forall j :: 0 <= j < |cells| ==> r[j] == CellText(cells[j])
  {
    seq(|cells|, j requires 0 <= j < |cells| => CellText(cells[j]))
  }

  /** One row's line: its fields in column order, joined by commas. */
  function RowLine(row: Row, headers: seq<Cell>): (r: string)
    ensures headers == [] ==> r == ""
    ensures |headers| >= 1 ==> FieldText(ValueUnder(row, headers[0])) <= r
    ensures |headers| >= 2 ==> |r| > |FieldText(ValueUnder(row, headers[0]))| &&
                               r[|FieldText(ValueUnder(row, headers[0]))|] == ','
  {
    var texts := FieldTexts(RowCells(row, headers));
    assert |headers| >= 1 ==> texts[0] == FieldText(ValueUnder(row, headers[0]));
    Join(texts, ',')
  }

  /** `headers.join(',')`: each header cell's text, a hole written as an empty field. */
  function HeaderLine(headers: seq<Cell>): (r: string)
    ensures |headers| == 1 ==> r == CellText(headers[0])
  {
    Join(CellTexts(headers), ',')
  }

  /** Reading a line of written fields gives back the texts of the cells, one per cell. */
  lemma {:induction false} ParseFields(cells: seq<Cell>)
    requires |cells| >= 1
    requires forall j :: 0 <= j < |cells| ==> Plain(cells[j])
    ensures ParseLine(Join(FieldTexts(cells), ',')) == CellTexts(cells)
    decreases |cells|
  {
    FieldTextsCons(cells);
    CellTextsCons(cells);
    if |cells| == 1 {
      ParseSingleField(cells[0]);
    } else {
      ParseFieldsCons(cells[0], FieldTexts(cells[1..]));
      ParseFields(cells[1..]);
    }
  }

  /** The written fields of a row are the first cell's field followed by the fields of the others. */
  lemma FieldTextsCons(cells: seq<Cell>)
    requires |cells| >= 1
    ensures FieldTexts(cells) == [FieldText(cells[0])] + FieldTexts(cells[1..])
  {
    var r, t := FieldTexts(cells), [FieldText(cells[0])] + FieldTexts(cells[1..]);
    forall i | 0 <= i < |r| ensures r[i] == t[i] {
      if i > 0 {
        assert cells[1..][i - 1] == cells[i];
      }
    }
  }

  /** The same for the texts a reader gets back. */
  lemma CellTextsCons(cells: seq<Cell>)
    requires |cells| >= 1
    ensures CellTexts(cells) == [CellText(cells[0])] + CellTexts(cells[1..])
  {
    var r, t := CellTexts(cells), [CellText(cells[0])] + CellTexts(cells[1..]);
    forall i | 0 <= i < |r| ensures r[i] == t[i] {
      if i > 0 {
        assert cells[1..][i - 1] == cells[i];
      }
    }
  }

  /** A line of one written field reads back as that cell's text. */
  lemma ParseSingleField(c: Cell)
    requires Plain(c)
    ensures ParseLine(Join([FieldText(c)], ',')) == [CellText(c)]
  {
    var text := FieldText(c);
    ParseField(c, "", "");
    assert text + "" == text;
    assert "" + CellText(c) == CellText(c);
  }

  /** Reading a written field and a comma in front of more fields gives the cell's text, then the rest. */
  lemma ParseFieldsCons(c: Cell, texts: seq<string>)
    requires Plain(c) && |texts| >= 1
    ensures ParseLine(Join([FieldText(c)] + texts, ',')) == [CellText(c)] + ParseLine(Join(texts, ','))
  {
    var j := Join(texts, ',');
    JoinCons(FieldText(c), texts, ',');
    ParseField(c, [','] + j, "");
    assert "" + CellText(c) == CellText(c);
    ParseComma(j, CellText(c));
  }

  /** Joining a first part in front of more parts puts one separator between them. */
  lemma JoinCons(first: string, parts: seq<string>, sep: char)
    requires |parts| >= 1
    ensures Join([first] + parts, sep) == first + ([sep] + Join(parts, sep))
  {
    assert ([first] + parts)[1..] == parts;
  }

  /** A comma outside quotes ends the current field. */
  lemma ParseComma(rest: string, cur: string)
    ensures ParseFrom([','] + rest, cur, false) == [cur] + ParseFrom(rest, "", false)
  {
    assert ([','] + rest)[1..] == rest;
  }

  /**
   * Reading a row line back gives exactly one field per column, in column
   * order, holding the cell's text, when no string cell of the row holds a
   * double quote or a line break.
   */
  lemma ParseRowLine(row: Row, headers: seq<Cell>)
    requires |headers| >= 1
    requires forall j :: 0 <= j < |headers| ==> Plain(ValueUnder(row, headers[j]))
    ensures |ParseLine(RowLine(row, headers))| == |headers|
    ensures forall j :: 0 <= j < |headers| ==> ParseLine(RowLine(row, headers))[j] == CellText(ValueUnder(row, headers[j]))
  {
    ParseFields(RowCells(row, headers));
  }

  /** A row line holds no line break when its string cells hold none. */
  lemma RowLineNoNewline(row: Row, headers: seq<Cell>)
    requires forall j :: 0 <= j < |headers| ==> Plain(ValueUnder(row, headers[j]))
    ensures '\n' !in RowLine(row, headers)
  {
    var texts := FieldTexts(RowCells(row, headers));
    forall j | 0 <= j < |texts| ensures '\n' !in texts[j] {
      FieldTextNoNewline(ValueUnder(row, headers[j]));
    }
    JoinAvoids(texts, ',', '\n');
  }

  /** The number of rows that go into the sample. */
  function PreviewCount(n: nat): (r: nat)
    ensures r <= n && r <= PreviewRowLimit
    ensures r == n || r == PreviewRowLimit
  {
    if n < PreviewRowLimit then n else PreviewRowLimit
  }

  /** The lines of the sampled rows. */
  function RowLines(data: seq<Row>, headers: seq<Cell>): (r: seq<string>)
    ensures |r| == PreviewCount(|data|)
    ensures forall i :: 0 <= i < |r| ==> r[i] == RowLine(data[i], headers)
  {
    seq(PreviewCount(|data|), i requires 0 <= i < PreviewCount(|data|) => RowLine(data[i], headers))
  }

  /** `formatDataForPrompt(data, headers)`. */
  function FormatDataForPrompt(data: seq<Row>, headers: seq<Cell>): (r: string)
    ensures HeaderLine(headers) + "\n" <= r
    ensures data == [] ==> r == HeaderLine(headers) + "\n"
  {
    HeaderLine(headers) + "\n" + Join(RowLines(data, headers), '\n')
  }

  /** Only the first 20 rows, in their order, decide the sample. */
  lemma PreviewOnly(data: seq<Row>, headers: seq<Cell>)
    ensures FormatDataForPrompt(data, headers) == FormatDataForPrompt(data[..PreviewCount(|data|)], headers)
  {
    assert RowLines(data, headers) == RowLines(data[..PreviewCount(|data|)], headers);
  }

  /**
   * The sample's lines are the header line and then one line per sampled row;
   * with no rows the text after the header line is empty.
   */
  lemma DocumentLines(data: seq<Row>, headers: seq<Cell>)
    requires forall j :: 0 <= j < |headers| ==> '\n' !in CellText(headers[j])
    requires forall i, j :: 0 <= i < |data| && 0 <= j < |headers| ==> Plain(ValueUnder(data[i], headers[j]))
    ensures Split(FormatDataForPrompt(data, headers), '\n') ==
            [HeaderLine(headers)] + if data == [] then [""] else RowLines(data, headers)
  {
    var head := HeaderLine(headers);
    var lines := RowLines(data, headers);
    JoinAvoids(CellTexts(headers), ',', '\n');
    SplitAfterLine(head, Join(lines, '\n'), '\n');
    if data != [] {
      forall i | 0 <= i < |lines| ensures '\n' !in lines[i] {
        RowLineNoNewline(data[i], headers);
      }
      SplitJoin(lines, '\n');
    }
  }

  /** A first line without the separator splits off as the first piece. */
  lemma SplitAfterLine(head: string, body: string, sep: char)
    requires sep !in head
    ensures Split(head + [sep] + body, sep) == [head] + Split(body, sep)
  {
    assert head + [sep] + body == head + ([sep] + body);
    SplitSkip(head, [sep] + body, "", sep);
    assert "" + head == head;
    assert ([sep] + body)[1..] == body;
  }

  /**
   * The header line reads back as the texts of the header cells, with an
   * empty field for each hole, when no header text holds a comma.
   */
  lemma HeaderLineRoundTrip(headers: seq<Cell>)
    requires |headers| >= 1
    requires forall j :: 0 <= j < |headers| ==> ',' !in CellText(headers[j])
    ensures Split(HeaderLine(headers), ',') == CellTexts(headers)
  {
    SplitJoin(CellTexts(headers), ',');
  }

  /** The header row `a, <blank>, c` is written `a,,c`, and the row {a: 1, c: 3} under it `1,,3`. */
  lemma BlankHeaderWrittenEmpty()
    ensures HeaderLine([Str("a"), Undef, Str("c")]) == "a,,c"
    ensures RowLine(map["a" := Num(1), "c" := Num(3)], [Str("a"), Undef, Str("c")]) == "1,,3"
  {
    var headers := [Str("a"), Undef, Str("c")];
    assert CellTexts(headers) == ["a", "", "c"];
    assert Join(["a", "", "c"], ',') == "a,,c" by {
      assert ["a", "", "c"][1..] == ["", "c"];
      assert ["", "c"][1..] == ["c"];
    }
    var row: Row := map["a" := Num(1), "c" := Num(3)];
    assert RowCells(row, headers) == [Num(1), Undef, Num(3)];
    assert IntToString(1) == "1" && IntToString(3) == "3";
    assert FieldTexts([Num(1), Undef, Num(3)]) == ["1", "", "3"];
    assert Join(["1", "", "3"], ',') == "1,,3" by {
      assert ["1", "", "3"][1..] == ["", "3"];
      assert ["", "3"][1..] == ["3"];
    }
  }

  /**
   * Inner double quotes are written as they are, so a reader cannot recover
   * them: the cell `a"b` reads back as `ab`.
   */
  lemma InnerQuoteIsLost()
    ensures ParseLine(RowLine(map["x" := Str("a\"b")], [Str("x")])) == ["ab"]
  {
    InnerQuoteWritten();
    InnerQuoteRead();
  }

  /** The cell `a"b` is written as `a"b`: no comma, so no quoting. */
  lemma InnerQuoteWritten()
    ensures RowLine(map["x" := Str("a\"b")], [Str("x")]) == "a\"b"
  {
    var row: Row := map["x" := Str("a\"b")];
    assert RowCells(row, [Str("x")]) == [Str("a\"b")];
    assert FieldTexts([Str("a\"b")]) == ["a\"b"] by {
      IncludesComma("a\"b");
    }
  }

  /** The reader drops the quote of `a"b`. */
  lemma InnerQuoteRead()
    ensures ParseLine("a\"b") == ["ab"]
  {
    var line := "a\"b";
    assert line[0] == 'a' && line[1..] == "\"b";
    assert "" + ['a'] == "a";
    assert ParseFrom(line, "", false) == ParseFrom("\"b", "a", false);
    assert "\"b"[1..] == "b";
    assert ParseFrom("\"b", "a", false) == ParseFrom("b", "a", true);
    assert "a" + ['b'] == "ab" && "b"[1..] == [];
    assert ParseFrom("b", "a", true) == ParseFrom([], "ab", true);
  }
}

=== FILE: row_filter.dfy ===
/**
 * The search box of the data view: keep the rows having some value whose
 * `String` form, lower-cased, contains the lower-cased query.
 */
module RowFilter {
  import opened JsValues

  /**
   * `Object.values(row).some(value => String(value).toLowerCase().includes(query.toLowerCase()))`.
   * Only keys the row has are looked at; a key holding `null` is seen as the text "null".
   */
  function RowMatches(row: Row, query: string): (r: bool)
    ensures r ==> row != map[]
    ensures query == "" ==> (r <==> row != map[])
  {
    var matches := exists k :: k in row && Includes(ToLower(ToJsString(row[k])), ToLower(query));
    if query == "" && row != map[] then EmptyQueryWitness(row); matches else matches
  }

  /** Every text includes the empty query, so a row with some key matches it. */
  lemma EmptyQueryWitness(row: Row)
    requires row != map[]
    ensures exists k :: k in row && Includes(ToLower(ToJsString(row[k])), ToLower(""))
  {
    var k :| k in row;
    assert ToLower("") == "";
    assert "" <= ToLower(ToJsString(row[k]));
  }

  /** The search is case-insensitive: queries that differ only in letter case find the same rows. */
  lemma QueryCaseIgnored(row: Row, q1: string, q2: string)
    requires SameIgnoringCase(q1, q2)
    ensures RowMatches(row, q1) == RowMatches(row, q2)
  {
    ToLowerIgnoresCase(q1, q2);
  }

  /** A worked example: the query "APPLE" finds a row holding "apple". */
  lemma UpperQueryFindsLower()
    ensures RowMatches(map["name" := Str("apple")], "APPLE")
  {
    assert ToLower("APPLE") == "apple";
    assert ToLower(ToJsString(Str("apple"))) == "apple";
    assert "apple" <= "apple";
    assert "name" in map["name" := Str("apple")];
  }

  /** `s.filter(keep)`: the elements `keep` accepts, in their order. */
  function KeepIf<T>(s: seq<T>, keep: T -> bool): (r: seq<T>)
    ensures |r| <= |s|
  {
    if s == [] then [] else (if keep(s[0]) then [s[0]] else []) + KeepIf(s[1..], keep)
  }

  /** Keeping works from the front: the first element is judged, then the rest. */
  lemma KeepIfCons<T>(x: T, rest: seq<T>, keep: T -> bool)
    ensures KeepIf([x] + rest, keep) == (if keep(x) then [x] else []) + KeepIf(rest, keep)
  {
    assert ([x] + rest)[1..] == rest;
  }

  /** Every element kept comes from the input and is accepted. */
  lemma {:induction false} KeepIfSound<T>(s: seq<T>, keep: T -> bool)
    ensures forall x :: x in KeepIf(s, keep) ==> x in s && keep(x)
    decreases |s|
  {
    if s != [] {
      KeepIfSound(s[1..], keep);
      assert KeepIf(s, keep) == (if keep(s[0]) then [s[0]] else []) + KeepIf(s[1..], keep);
    }
  }

  /** Keeping distributes over concatenation. */
  lemma {:induction false} KeepIfAppend<T>(a: seq<T>, b: seq<T>, keep: T -> bool)
    ensures KeepIf(a + b, keep) == KeepIf(a, keep) + KeepIf(b, keep)
    decreases |a|
  {
    if a == [] {
      assert a + b == b;
    } else {
      var head, tail := a[0], a[1..];
      assert a == [head] + tail;
      assert a + b == [head] + (tail + b);
      KeepIfAppend(tail, b, keep);
      KeepIfCons(head, tail + b, keep);
      KeepIfCons(head, tail, keep);
      var h := if keep(head) then [head] else [];
      var x, y := KeepIf(tail, keep), KeepIf(b, keep);
      assert h + (x + y) == (h + x) + y;
    }
  }

  /** Every copy of an accepted element is kept, and no copy of another. */
  lemma {:induction false} KeepIfCount<T>(s: seq<T>, keep: T -> bool, x: T)
    ensures multiset(KeepIf(s, keep))[x] == if keep(x) then multiset(s)[x] else 0
    decreases |s|
  {
    if s != [] {
      KeepIfCount(s[1..], keep, x);
      assert s == [s[0]] + s[1..];
      KeepIfCons(s[0], s[1..], keep);
    }
  }

  /** The search callback for a query. */
  function Matcher(query: string): Row -> bool {
    row => RowMatches(row, query)
  }

  /** `filteredData`: an empty query leaves the rows as they are, otherwise only matching rows are kept. */
  function Filter(rows: seq<Row>, query: string): (r: seq<Row>)
    ensures |r| <= |rows|
    ensures query == "" ==> r == rows
    ensures query != "" ==> forall x :: x in r ==> x in rows && RowMatches(x, query)
  {
    if query == "" then rows
    else
      KeepIfSound(rows, Matcher(query));
      KeepIf(rows, Matcher(query))
  }

  /** Filtering respects concatenation: rows keep their relative order and are judged one by one. */
  lemma FilterAppend(a: seq<Row>, b: seq<Row>, query: string)
    ensures Filter(a + b, query) == Filter(a, query) + Filter(b, query)
  {
    if query != "" {
      KeepIfAppend(a, b, Matcher(query));
    }
  }

  /** A single row is kept exactly when the query is empty or the row matches it. */
  lemma FilterSingle(x: Row, query: string)
    ensures Filter([x], query) == if query == "" || RowMatches(x, query) then [x] else []
  {
    assert [x][1..] == [];
  }

  /**
   * Every copy of a row survives the filter when the query is empty or the row
   * matches, and no copy survives otherwise.
   */
  lemma FilterCount(rows: seq<Row>, query: string, x: Row)
    ensures multiset(Filter(rows, query))[x] ==
            if query == "" || RowMatches(x, query) then multiset(rows)[x] else 0
  {
    if query != "" {
      KeepIfCount(rows, Matcher(query), x);
    }
  }

  /** A matching row of the input is always in the result. */
  lemma FilterKeepsMatches(rows: seq<Row>, query: string, i: nat)
    requires i < |rows| && RowMatches(rows[i], query)
    ensures rows[i] in Filter(rows, query)
  {
    FilterCount(rows, query, rows[i]);
    assert rows[i] in multiset(rows);
  }

  /** The query "nul" finds a row through a cell that holds `null`, whose `String` form is "null". */
  lemma NullCellMatchesNul(row: Row, key: string)
    requires key in row && row[key] == Null
    ensures RowMatches(row, "nul")
  {
    assert ToLower("null") == "null";
    assert ToLower("nul") == "nul";
    assert OccursAt("null", "nul", 0);
    IncludesIffOccurs("null", "nul");
  }

  /**
   * The early return for an empty query agrees with running the match test
   * whenever no row is an empty record: every row with a key matches "".
   */
  lemma {:induction false} EmptyQueryShortcut(rows: seq<Row>)
    requires forall i :: 0 <= i < |rows| ==> rows[i] != map[]
    ensures KeepIf(rows, Matcher("")) == Filter(rows, "")
    decreases |rows|
  {
    if rows != [] {
      EmptyQueryShortcut(rows[1..]);
      assert Matcher("")(rows[0]);
      assert rows == [rows[0]] + rows[1..];
    }
  }

  /** A row with no keys never matches a non-empty query; only the empty query keeps it. */
  lemma EmptyRowKeptOnlyByEmptyQuery(query: string)
    ensures Filter([map[]], query) == if query == "" then [map[]] else []
  {
    FilterSingle(map[], query);
  }
}

=== FILE: row_sort.dfy ===
/**
 * Sorting the filtered rows by one column (`sortedData`) and the column-header
 * toggle that chooses the column and direction (`handleSort` / `requestSort`).
 *
 * The source copies the rows and sorts the copy in place with a comparator that
 * sends `null`/`undefined` values after present ones and compares present values
 * with `<` and `>`. The model fixes the sorting algorithm to an insertion sort
 * driven by that comparator, called as V8's binary insertion sort calls it:
 * with the element being placed first and an earlier element second, moving
 * the element only past earlier elements it ranks strictly before.
 * `InsertionSorted` is its specification and `SortRows` the array
 * implementation proved equal to it.
 */
module RowSort {
  import opened Outcomes
  import opened JsValues

  datatype Direction = Ascending | Descending

  /** `SortConfig`: one key and one direction. */
  datatype SortConfig = SortConfig(key: string, direction: Direction)

  // ---------------------------------------------------------------------------
  // The comparator

  /** `a < b` on strings: lexicographic order of the characters. */
  predicate StrLess(a: string, b: string)
    decreases |a|
  {
    if a == [] then b != []
    else if b == [] then false
    else a[0] < b[0] || (a[0] == b[0] && StrLess(a[1..], b[1..]))
  }

  lemma {:induction false} StrLessIrreflexive(a: string)
    ensures !StrLess(a, a)
    decreases |a|
  {
    if a != [] {
      StrLessIrreflexive(a[1..]);
    }
  }

  lemma {:induction false} StrLessTransitive(a: string, b: string, c: string)
    requires StrLess(a, b) && StrLess(b, c)
    ensures StrLess(a, c)
    decreases |a|
  {
    if a != [] && a[0] == b[0] && b[0] == c[0] {
      StrLessTransitive(a[1..], b[1..], c[1..]);
    }
  }

  lemma {:induction false} StrLessTotal(a: string, b: string)
    ensures a == b || StrLess(a, b) || StrLess(b, a)
    decreases |a|
  {
    if a != [] && b != [] && a[0] == b[0] {
      StrLessTotal(a[1..], b[1..]);
      if a[1..] == b[1..] {
        assert a == [a[0]] + a[1..] && b == [b[0]] + b[1..];
      }
    }
  }

  /**
   * `u < v` for present cells: numbers by value, strings lexicographically. A
   * comparison between a number and a string is taken to be false both ways.
   */
  predicate CellLess(u: Cell, v: Cell) {
    match (u, v)
    case (Num(x), Num(y)) => x < y
    case (Str(x), Str(y)) => StrLess(x, y)
    case _ => false
  }

  /** The comparator passed to `sort`, branch for branch. */
  function Compare(a: Row, b: Row, cfg: SortConfig): (r: int)
    ensures -1 <= r <= 1
    ensures IsMissing(KeyValue(a, cfg.key)) ==> r == 1
    ensures !IsMissing(KeyValue(a, cfg.key)) && IsMissing(KeyValue(b, cfg.key)) ==> r == -1
    ensures r == 0 ==> !IsMissing(KeyValue(a, cfg.key)) && !IsMissing(KeyValue(b, cfg.key))
  {
    var valA := KeyValue(a, cfg.key);
    var valB := KeyValue(b, cfg.key);
    if IsMissing(valA) then 1
    else if IsMissing(valB) then -1
    else if CellLess(valA, valB) then (if cfg.direction == Ascending then -1 else 1)
    else if CellLess(valB, valA) then (if cfg.direction == Ascending then 1 else -1)
    else 0
  }

  /** Both cells are numbers, or both are strings. */
  predicate SameKind(u: Cell, v: Cell) {
    (u.Num? && v.Num?) || (u.Str? && v.Str?)
  }

  /** `u` may come before `v` in the direction: non-decreasing ascending, non-increasing descending. */
  predicate InOrder(u: Cell, v: Cell, dir: Direction) {
    if dir == Ascending then !CellLess(v, u) else !CellLess(u, v)
  }

  lemma CellLessAsymmetric(u: Cell, v: Cell)
    requires SameKind(u, v) && CellLess(u, v)
    ensures !CellLess(v, u)
  {
    if u.Str? && CellLess(v, u) {
      StrLessTransitive(u.s, v.s, u.s);
      StrLessIrreflexive(u.s);
    }
  }

  /**
   * On cells of one kind, a later row `b` is kept behind an earlier row `a`
   * (the comparator does not rank `b` strictly first) exactly when the pair is in order.
   */
  lemma CompareAgreesWithOrder(a: Row, b: Row, cfg: SortConfig)
    requires SameKind(KeyValue(a, cfg.key), KeyValue(b, cfg.key))
    ensures Compare(b, a, cfg) >= 0 <==> InOrder(KeyValue(a, cfg.key), KeyValue(b, cfg.key), cfg.direction)
  {
    var u, v := KeyValue(a, cfg.key), KeyValue(b, cfg.key);
    if CellLess(u, v) {
      CellLessAsymmetric(u, v);
    }
  }

  lemma InOrderTotal(u: Cell, v: Cell, dir: Direction)
    requires SameKind(u, v)
    ensures InOrder(u, v, dir) || InOrder(v, u, dir)
  {
    if CellLess(u, v) {
      CellLessAsymmetric(u, v);
    }
  }

  lemma InOrderTransitive(u: Cell, v: Cell, w: Cell, dir: Direction)
    requires SameKind(u, v) && SameKind(v, w)
    requires InOrder(u, v, dir) && InOrder(v, w, dir)
    ensures InOrder(u, w, dir)
  {
    if u.Str? {
      var x, y, z := u.s, v.s, w.s;
      StrLessTotal(x, y);
      StrLessTotal(y, z);
      StrLessIrreflexive(x);
      if dir == Ascending {
        if StrLess(z, x) {
          if StrLess(x, y) { StrLessTransitive(z, x, y); }
          if StrLess(y, z) && StrLess(z, y) { StrLessTransitive(y, z, y); StrLessIrreflexive(y); }
          if x == y && y != z && StrLess(y, z) { StrLessTransitive(y, z, x); }
          if StrLess(x, y) && StrLess(y, z) { StrLessTransitive(x, y, z); StrLessTransitive(x, z, x); }
        }
      } else {
        if StrLess(x, z) {
          if StrLess(y, x) { StrLessTransitive(y, x, z); }
          if StrLess(z, y) && StrLess(y, z) { StrLessTransitive(y, z, y); StrLessIrreflexive(y); }
          if x == y && y != z && StrLess(z, y) { StrLessTransitive(x, z, y); }
          if StrLess(y, x) && StrLess(z, y) { StrLessTransitive(z, y, x); StrLessTransitive(x, z, x); }
        }
      }
    }
  }

  // ---------------------------------------------------------------------------
  // The specification of the sort

  /**
   * Inserting `x` behind the already sorted `s`, as one pass of insertion sort
   * does: `x` moves left past every element it ranks strictly before.
   */
  function Insert(s: seq<Row>, x: Row, cfg: SortConfig): (r: seq<Row>)
    ensures |r| == |s| + 1
    decreases |s|
  {
    if s == [] then [x]
    else if Compare(x, s[|s| - 1], cfg) < 0 then Insert(s[..|s| - 1], x, cfg) + [s[|s| - 1]]
    else s + [x]
  }

  /** An insertion pass adds `x` and loses nothing. */
  lemma {:induction false} InsertPermutes(s: seq<Row>, x: Row, cfg: SortConfig)
    ensures multiset(Insert(s, x, cfg)) == multiset(s) + multiset{x}
    decreases |s|
  {
    if s != [] && Compare(x, s[|s| - 1], cfg) < 0 {
      InsertPermutes(s[..|s| - 1], x, cfg);
      assert s == s[..|s| - 1] + [s[|s| - 1]];
    }
  }

  /** The rows after an insertion pass are `x` and the rows of `s`. */
  lemma InsertMembers(s: seq<Row>, x: Row, cfg: SortConfig)
    ensures forall y :: y in Insert(s, x, cfg) <==> y == x || y in s
  {
    InsertPermutes(s, x, cfg);
    forall y ensures y in Insert(s, x, cfg) <==> y == x || y in s {
      assert y in Insert(s, x, cfg) <==> y in multiset(Insert(s, x, cfg));
      assert y in s <==> y in multiset(s);
    }
  }

  /** The rows in the order insertion sort with the comparator leaves them. */
  function InsertionSorted(s: seq<Row>, cfg: SortConfig): (r: seq<Row>)
    ensures |r| == |s|
    decreases |s|
  {
    if s == [] then []
    else Insert(InsertionSorted(s[..|s| - 1], cfg), s[|s| - 1], cfg)
  }

  /** The sorted rows are a permutation of the input: every row keeps its number of copies. */
  lemma {:induction false} InsertionSortedPermutes(s: seq<Row>, cfg: SortConfig)
    ensures multiset(InsertionSorted(s, cfg)) == multiset(s)
    decreases |s|
  {
    if s != [] {
      InsertionSortedPermutes(s[..|s| - 1], cfg);
      InsertPermutes(InsertionSorted(s[..|s| - 1], cfg), s[|s| - 1], cfg);
      assert s == s[..|s| - 1] + [s[|s| - 1]];
    }
  }

  /** `sortedData`: a reordered copy when a sort is configured, the rows unchanged otherwise. */
  function SortSpec(rows: seq<Row>, cfg: Option<SortConfig>): (r: seq<Row>)
    ensures |r| == |rows|
    ensures cfg.None? ==> r == rows
  {
    match cfg
    case None => rows
    case Some(c) => InsertionSorted(rows, c)
  }

  /** Sorting, configured or not, is a permutation of the rows. */
  lemma SortSpecPermutes(rows: seq<Row>, cfg: Option<SortConfig>)
    ensures multiset(SortSpec(rows, cfg)) == multiset(rows)
  {
    if cfg.Some? {
      InsertionSortedPermutes(rows, cfg.value);
    }
  }

  // ---------------------------------------------------------------------------
  // What a sorted result looks like

  /** No row whose key value is `null`/`undefined` comes before a row whose key value is present. */
  predicate MissingLast(s: seq<Row>, key: string) {
    forall p, q :: 0 <= p < q < |s| && IsMissing(KeyValue(s[p], key)) ==> IsMissing(KeyValue(s[q], key))
  }

  /** Any two rows whose key values are of one kind are in the direction's order. */
  predicate OrderedBy(s: seq<Row>, cfg: SortConfig) {
    forall p, q :: 0 <= p < q < |s| && SameKind(KeyValue(s[p], cfg.key), KeyValue(s[q], cfg.key)) ==>
      InOrder(KeyValue(s[p], cfg.key), KeyValue(s[q], cfg.key), cfg.direction)
  }

  /** The present key values of the rows are all numbers or all strings. */
  predicate Homogeneous(s: seq<Row>, key: string) {
    (forall r :: r in s && !IsMissing(KeyValue(r, key)) ==> KeyValue(r, key).Num?) ||
    (forall r :: r in s && !IsMissing(KeyValue(r, key)) ==> KeyValue(r, key).Str?)
  }

  lemma HomogeneousSubset(a: seq<Row>, b: seq<Row>, key: string)
    requires forall r :: r in a ==> r in b
    requires Homogeneous(b, key)
    ensures Homogeneous(a, key)
  {
  }

  lemma MissingLastSnoc(t: seq<Row>, z: Row, key: string)
    requires MissingLast(t, key)
    requires forall y :: y in t && IsMissing(KeyValue(y, key)) ==> IsMissing(KeyValue(z, key))
    ensures MissingLast(t + [z], key)
  {
    var u := t + [z];
    forall p, q | 0 <= p < q < |u| && IsMissing(KeyValue(u[p], key))
      ensures IsMissing(KeyValue(u[q], key))
    {
      if q == |t| {
        assert u[p] in t;
      } else {
        assert u[p] == t[p] && u[q] == t[q];
      }
    }
  }

  lemma OrderedBySnoc(t: seq<Row>, z: Row, cfg: SortConfig)
    requires OrderedBy(t, cfg)
    requires forall y :: y in t && SameKind(KeyValue(y, cfg.key), KeyValue(z, cfg.key)) ==>
               InOrder(KeyValue(y, cfg.key), KeyValue(z, cfg.key), cfg.direction)
    ensures OrderedBy(t + [z], cfg)
  {
    var u := t + [z];
    forall p, q | 0 <= p < q < |u| && SameKind(KeyValue(u[p], cfg.key), KeyValue(u[q], cfg.key))
      ensures InOrder(KeyValue(u[p], cfg.key), KeyValue(u[q], cfg.key), cfg.direction)
    {
      if q == |t| {
        assert u[p] in t;
      } else {
        assert u[p] == t[p] && u[q] == t[q];
      }
    }
  }

  /** Insertion keeps missing key values at the end, whatever the kinds of the present ones. */
  lemma {:induction false} InsertKeepsMissingLast(s: seq<Row>, x: Row, cfg: SortConfig)
    requires MissingLast(s, cfg.key)
    ensures MissingLast(Insert(s, x, cfg), cfg.key)
    decreases |s|
  {
    if s != [] {
      var init, last := s[..|s| - 1], s[|s| - 1];
      if Compare(x, last, cfg) < 0 {
        assert MissingLast(init, cfg.key);
        InsertKeepsMissingLast(init, x, cfg);
        MissingLastPassed(s, x, cfg);
      } else {
        MissingLastStopped(s, x, cfg);
      }
    }
  }

  /** The case where `x` moves past the last row: `x` has a present value, so that row may end the result. */
  lemma MissingLastPassed(s: seq<Row>, x: Row, cfg: SortConfig)
    requires s != [] && MissingLast(s, cfg.key)
    requires Compare(x, s[|s| - 1], cfg) < 0
    requires MissingLast(Insert(s[..|s| - 1], x, cfg), cfg.key)
    ensures MissingLast(Insert(s, x, cfg), cfg.key)
  {
    var key := cfg.key;
    var init, last := s[..|s| - 1], s[|s| - 1];
    var t := Insert(init, x, cfg);
    InsertMembers(init, x, cfg);
    forall y | y in t && IsMissing(KeyValue(y, key))
      ensures IsMissing(KeyValue(last, key))
    {
      if y != x {
        var p :| 0 <= p < |init| && init[p] == y;
        assert s[p] == y;
      }
    }
    MissingLastSnoc(t, last, key);
  }

  /**
   * The case where `x` stays behind the last row: either `x` is missing, or
   * that row, and so every row, has a present value.
   */
  lemma MissingLastStopped(s: seq<Row>, x: Row, cfg: SortConfig)
    requires s != [] && MissingLast(s, cfg.key)
    requires Compare(x, s[|s| - 1], cfg) >= 0
    ensures MissingLast(Insert(s, x, cfg), cfg.key)
  {
    var key := cfg.key;
    var last := s[|s| - 1];
    if !IsMissing(KeyValue(x, key)) {
      assert !IsMissing(KeyValue(last, key));
      forall y | y in s
        ensures !IsMissing(KeyValue(y, key))
      {
        var p :| 0 <= p < |s| && s[p] == y;
        if p != |s| - 1 {
          assert IsMissing(KeyValue(y, key)) ==> IsMissing(KeyValue(last, key));
        }
      }
    }
    MissingLastSnoc(s, x, key);
  }

  /** Insertion keeps a homogeneous column in order. */
  lemma {:induction false} InsertKeepsOrder(s: seq<Row>, x: Row, cfg: SortConfig)
    requires OrderedBy(s, cfg)
    requires Homogeneous(s + [x], cfg.key)
    ensures OrderedBy(Insert(s, x, cfg), cfg)
    decreases |s|
  {
    if s != [] {
      var init, last := s[..|s| - 1], s[|s| - 1];
      if Compare(x, last, cfg) < 0 {
        assert OrderedBy(init, cfg);
        HomogeneousSubset(init + [x], s + [x], cfg.key);
        InsertKeepsOrder(init, x, cfg);
        OrderPassed(s, x, cfg);
      } else {
        OrderStopped(s, x, cfg);
      }
    }
  }

  /** The case where `x` moves past the last row, which then ends the result. */
  lemma OrderPassed(s: seq<Row>, x: Row, cfg: SortConfig)
    requires s != [] && OrderedBy(s, cfg)
    requires Homogeneous(s + [x], cfg.key)
    requires Compare(x, s[|s| - 1], cfg) < 0
    requires OrderedBy(Insert(s[..|s| - 1], x, cfg), cfg)
    ensures OrderedBy(Insert(s, x, cfg), cfg)
  {
    var key := cfg.key;
    var init, last := s[..|s| - 1], s[|s| - 1];
    var vLast, vX := KeyValue(last, key), KeyValue(x, key);
    var t := Insert(init, x, cfg);
    InsertMembers(init, x, cfg);
    forall y | y in t && SameKind(KeyValue(y, key), vLast)
      ensures InOrder(KeyValue(y, key), vLast, cfg.direction)
    {
      if y == x {
        CompareAgreesWithOrder(last, x, cfg);
        InOrderTotal(vX, vLast, cfg.direction);
      } else {
        var p :| 0 <= p < |init| && init[p] == y;
        assert s[p] == y;
      }
    }
    OrderedBySnoc(t, last, cfg);
  }

  /** The case where `x` stays behind the last row, and so behind every row. */
  lemma OrderStopped(s: seq<Row>, x: Row, cfg: SortConfig)
    requires s != [] && OrderedBy(s, cfg)
    requires Homogeneous(s + [x], cfg.key)
    requires Compare(x, s[|s| - 1], cfg) >= 0
    ensures OrderedBy(Insert(s, x, cfg), cfg)
  {
    var key := cfg.key;
    var last := s[|s| - 1];
    var vLast, vX := KeyValue(last, key), KeyValue(x, key);
    forall y | y in s && SameKind(KeyValue(y, key), vX)
      ensures InOrder(KeyValue(y, key), vX, cfg.direction)
    {
      var p :| 0 <= p < |s| && s[p] == y;
      assert last in s + [x] && x in s + [x] && y in s + [x];
      CompareAgreesWithOrder(last, x, cfg);
      if p != |s| - 1 {
        InOrderTransitive(KeyValue(y, key), vLast, vX, cfg.direction);
      }
    }
    OrderedBySnoc(s, x, cfg);
  }

  /** Rows whose key value is `null` or `undefined` come after all others, in both directions. */
  lemma {:induction false} SortedMissingLast(s: seq<Row>, cfg: SortConfig)
    ensures MissingLast(InsertionSorted(s, cfg), cfg.key)
    decreases |s|
  {
    if s != [] {
      SortedMissingLast(s[..|s| - 1], cfg);
      InsertKeepsMissingLast(InsertionSorted(s[..|s| - 1], cfg), s[|s| - 1], cfg);
    }
  }

  /**
   * When the column's present values are all numbers or all strings, ascending
   * order leaves them non-decreasing and descending order non-increasing.
   */
  lemma {:induction false} SortedInOrder(s: seq<Row>, cfg: SortConfig)
    requires Homogeneous(s, cfg.key)
    ensures OrderedBy(InsertionSorted(s, cfg), cfg)
    decreases |s|
  {
    if s != [] {
      var init := s[..|s| - 1];
      HomogeneousSubset(init, s, cfg.key);
      SortedInOrder(init, cfg);
      var t := InsertionSorted(init, cfg);
      InsertionSortedPermutes(init, cfg);
      forall r | r in t + [s[|s| - 1]] ensures r in s {
        if r in t { assert r in multiset(init); }
      }
      HomogeneousSubset(t + [s[|s| - 1]], s, cfg.key);
      InsertKeepsOrder(t, s[|s| - 1], cfg);
    }
  }

  /**
   * Rows already in the sorted shape (missing values last, each kind in order,
   * one kind of present value) are left exactly where they are.
   */
  lemma SortedFixed(t: seq<Row>, cfg: SortConfig)
    requires MissingLast(t, cfg.key) && OrderedBy(t, cfg) && Homogeneous(t, cfg.key)
    ensures InsertionSorted(t, cfg) == t
  {
    var key := cfg.key;
    forall i | 0 < i < |t| ensures Compare(t[i], t[i - 1], cfg) >= 0 {
      if !IsMissing(KeyValue(t[i], key)) {
        assert !IsMissing(KeyValue(t[i - 1], key));
        assert t[i - 1] in t && t[i] in t;
        CompareAgreesWithOrder(t[i - 1], t[i], cfg);
      }
    }
    NoDescentFixed(t, cfg);
  }

  /** No row is ranked by the comparator strictly before the row just ahead of it. */
  predicate NoDescent(s: seq<Row>, cfg: SortConfig) {
    forall i :: 0 < i < |s| ==> Compare(s[i], s[i - 1], cfg) >= 0
  }

  /** An insertion pass ends with `x` or with the row that ended `s`. */
  lemma InsertEnd(s: seq<Row>, x: Row, cfg: SortConfig)
    ensures Insert(s, x, cfg)[|s|] == x || (s != [] && Insert(s, x, cfg)[|s|] == s[|s| - 1])
  {
  }

  /** An insertion pass leaves no row ranked strictly before its predecessor. */
  lemma {:induction false} InsertNoDescent(s: seq<Row>, x: Row, cfg: SortConfig)
    requires NoDescent(s, cfg)
    ensures NoDescent(Insert(s, x, cfg), cfg)
    decreases |s|
  {
    if s != [] {
      var init, last := s[..|s| - 1], s[|s| - 1];
      if Compare(x, last, cfg) < 0 {
        assert NoDescent(init, cfg);
        InsertNoDescent(init, x, cfg);
        var t := Insert(init, x, cfg);
        InsertEnd(init, x, cfg);
        if t[|init|] == x {
          CompareAntisymmetric(x, last, cfg);
        } else {
          assert Compare(s[|s| - 1], s[|s| - 2], cfg) >= 0;
        }
        var u := t + [last];
        forall i | 0 < i < |u| ensures Compare(u[i], u[i - 1], cfg) >= 0 {
          if i < |t| {
            assert u[i] == t[i] && u[i - 1] == t[i - 1];
          }
        }
      }
    }
  }

  /** Whatever the input, the sorted rows have no descent. */
  lemma {:induction false} SortedNoDescent(s: seq<Row>, cfg: SortConfig)
    ensures NoDescent(InsertionSorted(s, cfg), cfg)
    decreases |s|
  {
    if s != [] {
      SortedNoDescent(s[..|s| - 1], cfg);
      InsertNoDescent(InsertionSorted(s[..|s| - 1], cfg), s[|s| - 1], cfg);
    }
  }

  /** Rows with no descent are left exactly where they are. */
  lemma {:induction false} NoDescentFixed(t: seq<Row>, cfg: SortConfig)
    requires NoDescent(t, cfg)
    ensures InsertionSorted(t, cfg) == t
    decreases |t|
  {
    if t != [] {
      var init := t[..|t| - 1];
      assert NoDescent(init, cfg);
      NoDescentFixed(init, cfg);
      if init != [] {
        assert Compare(t[|t| - 1], init[|init| - 1], cfg) >= 0;
      }
      assert t == init + [t[|t| - 1]];
    }
  }

  /** Sorting the sorted rows again changes nothing, whatever kinds the column mixes. */
  lemma SortIdempotent(s: seq<Row>, cfg: SortConfig)
    ensures InsertionSorted(InsertionSorted(s, cfg), cfg) == InsertionSorted(s, cfg)
  {
    SortedNoDescent(s, cfg);
    NoDescentFixed(InsertionSorted(s, cfg), cfg);
  }

  /** The rows whose key value is `null` or `undefined`, in the order they occur. */
  function MissingRows(s: seq<Row>, key: string): (r: seq<Row>)
    ensures |r| <= |s|
    ensures forall i :: 0 <= i < |r| ==> IsMissing(KeyValue(r[i], key))
    decreases |s|
  {
    if s == [] then []
    else
      var last := s[|s| - 1];
      MissingRows(s[..|s| - 1], key) + (if IsMissing(KeyValue(last, key)) then [last] else [])
  }

  lemma MissingRowsSnoc(t: seq<Row>, z: Row, key: string)
    ensures MissingRows(t + [z], key) == MissingRows(t, key) + (if IsMissing(KeyValue(z, key)) then [z] else [])
  {
    assert (t + [z])[..|t|] == t;
  }

  /** An insertion pass adds `x` to the missing rows only at their end, and only when `x` is missing. */
  lemma {:induction false} InsertMissingRows(s: seq<Row>, x: Row, cfg: SortConfig)
    ensures MissingRows(Insert(s, x, cfg), cfg.key) ==
            MissingRows(s, cfg.key) + (if IsMissing(KeyValue(x, cfg.key)) then [x] else [])
    decreases |s|
  {
    var key := cfg.key;
    if s == [] {
      MissingRowsSnoc([], x, key);
    } else {
      var init, last := s[..|s| - 1], s[|s| - 1];
      if Compare(x, last, cfg) < 0 {
        assert !IsMissing(KeyValue(x, key));
        var t := Insert(init, x, cfg);
        InsertMissingRows(init, x, cfg);
        assert MissingRows(t, key) == MissingRows(init, key);
        assert Insert(s, x, cfg) == t + [last];
        MissingRowsSnoc(t, last, key);
        assert s == init + [last];
        MissingRowsSnoc(init, last, key);
      } else {
        MissingRowsSnoc(s, x, key);
      }
    }
  }

  /**
   * The rows whose key value is `null` or `undefined` come out in the order they
   * went in: the sort never moves one such row past another.
   */
  lemma {:induction false} SortedMissingRows(s: seq<Row>, cfg: SortConfig)
    ensures MissingRows(InsertionSorted(s, cfg), cfg.key) == MissingRows(s, cfg.key)
    decreases |s|
  {
    if s != [] {
      var init, last := s[..|s| - 1], s[|s| - 1];
      SortedMissingRows(init, cfg);
      InsertMissingRows(InsertionSorted(init, cfg), last, cfg);
      assert s == init + [last];
      MissingRowsSnoc(init, last, cfg.key);
    }
  }

  /**
   * Rows whose key value is `null` or `undefined` keep their relative order:
   * the comparator ranks such a row after everything, so it is never moved.
   */
  lemma AllMissingUnchanged(s: seq<Row>, cfg: SortConfig)
    requires forall r :: r in s ==> IsMissing(KeyValue(r, cfg.key))
    ensures InsertionSorted(s, cfg) == s
  {
    SortedFixed(s, cfg);
  }

  /** Unless both values are missing, swapping the arguments negates the answer. */
  lemma CompareAntisymmetric(a: Row, b: Row, cfg: SortConfig)
    requires !IsMissing(KeyValue(a, cfg.key)) || !IsMissing(KeyValue(b, cfg.key))
    ensures Compare(a, b, cfg) == -Compare(b, a, cfg)
  {
    var u, v := KeyValue(a, cfg.key), KeyValue(b, cfg.key);
    if SameKind(u, v) {
      if CellLess(u, v) { CellLessAsymmetric(u, v); }
      if CellLess(v, u) { CellLessAsymmetric(v, u); }
    }
  }

  /**
   * For the remaining case the comparator is not antisymmetric: it answers 1 for a pair of missing
   * values in either order, so which of the two rows comes first depends on how
   * the engine's sort calls it.
   */
  lemma CompareMissingPair(a: Row, b: Row, cfg: SortConfig)
    requires IsMissing(KeyValue(a, cfg.key)) && IsMissing(KeyValue(b, cfg.key))
    ensures Compare(a, b, cfg) == 1 && Compare(b, a, cfg) == 1
  {
  }

  // ---------------------------------------------------------------------------
  // The in-place sort of a copy

  /** A step of the inner loop: moving `x` past `s[j - 1]` does not change where the pass ends. */
  lemma InsertShift(s: seq<Row>, x: Row, cfg: SortConfig, j: nat)
    requires 0 < j <= |s| && Compare(x, s[j - 1], cfg) < 0
    ensures Insert(s[..j], x, cfg) + s[j..] == Insert(s[..j - 1], x, cfg) + s[j - 1..]
  {
    var t := s[..j];
    assert t[|t| - 1] == s[j - 1];
    assert t[..|t| - 1] == s[..j - 1];
    assert Insert(t, x, cfg) == Insert(s[..j - 1], x, cfg) + [s[j - 1]];
    assert s[j - 1..] == [s[j - 1]] + s[j..];
  }

  /** Where the inner loop stops, `x` goes right behind the part it did not pass. */
  lemma InsertStop(s: seq<Row>, x: Row, cfg: SortConfig, j: nat)
    requires j <= |s| && (j == 0 || Compare(x, s[j - 1], cfg) >= 0)
    ensures Insert(s[..j], x, cfg) == s[..j] + [x]
  {
  }

  /**
   * The array during a pass: the part of the sorted prefix not yet passed, a
   * hole, the passed part moved one place right, then the untouched rest.
   */
  ghost predicate PassState(b: seq<Row>, prefix: seq<Row>, rest: seq<Row>, x: Row, j: nat, cfg: SortConfig) {
    && j <= |prefix|
    && |b| == |prefix| + 1 + |rest|
    && b[..j] == prefix[..j]
    && b[j + 1..] == prefix[j..] + rest
    && Insert(prefix, x, cfg) == Insert(prefix[..j], x, cfg) + prefix[j..]
  }

  lemma PassStart(b: seq<Row>, i: nat, cfg: SortConfig)
    requires i < |b|
    ensures PassState(b, b[..i], b[i + 1..], b[i], i, cfg)
  {
    assert b[..i][..i] == b[..i];
  }

  lemma PassStep(b: seq<Row>, prefix: seq<Row>, rest: seq<Row>, x: Row, j: nat, cfg: SortConfig)
    requires PassState(b, prefix, rest, x, j, cfg)
    requires 0 < j && Compare(x, b[j - 1], cfg) < 0
    ensures PassState(b[j := b[j - 1]], prefix, rest, x, j - 1, cfg)
  {
    InsertShift(prefix, x, cfg, j);
    var c := b[j := b[j - 1]];
    assert b[j - 1] == prefix[j - 1] by { assert b[..j][j - 1] == prefix[..j][j - 1]; }
    assert c[j + 1..] == b[j + 1..];
    assert c[j..] == [c[j]] + c[j + 1..];
    assert c[..j - 1] == b[..j - 1];
    assert prefix[..j - 1] == prefix[..j][..j - 1];
    assert prefix[j - 1..] == [prefix[j - 1]] + prefix[j..];
  }

  lemma PassEnd(b: seq<Row>, prefix: seq<Row>, rest: seq<Row>, x: Row, j: nat, cfg: SortConfig)
    requires PassState(b, prefix, rest, x, j, cfg)
    requires j == 0 || Compare(x, b[j - 1], cfg) >= 0
    ensures b[j := x][..|prefix| + 1] == Insert(prefix, x, cfg)
    ensures b[j := x][|prefix| + 1..] == rest
  {
    InsertStop(prefix, x, cfg, j);
    var c := b[j := x];
    assert c == prefix[..j] + [x] + prefix[j..] + rest;
  }

  /** One pass of insertion sort: slide `a[i]` left past the elements it ranks strictly before. */
  method InsertLast(a: array<Row>, i: nat, cfg: SortConfig)
    requires i < a.Length
    modifies a
    ensures a[..i + 1] == Insert(old(a[..i]), old(a[i]), cfg)
    ensures a[i + 1..] == old(a[i + 1..])
  {
    ghost var prefix, rest := a[..i], a[i + 1..];
    var x := a[i];
    var j := i;
    PassStart(a[..], i, cfg);
    while j > 0 && Compare(x, a[j - 1], cfg) < 0
      invariant PassState(a[..], prefix, rest, x, j, cfg)
    {
      ghost var b := a[..];
      PassStep(b, prefix, rest, x, j, cfg);
      a[j] := a[j - 1];
      assert a[..] == b[j := b[j - 1]];
      j := j - 1;
    }
    ghost var b := a[..];
    PassEnd(b, prefix, rest, x, j, cfg);
    a[j] := x;
    assert a[..] == b[j := x];
  }

  /** Sorting one more element of the input is one more insertion pass. */
  lemma InsertionSortedPrefix(input: seq<Row>, i: nat, cfg: SortConfig)
    requires i < |input|
    ensures InsertionSorted(input[..i + 1], cfg) == Insert(InsertionSorted(input[..i], cfg), input[i], cfg)
  {
    var next := input[..i + 1];
    assert next[..i] == input[..i] && next[i] == input[i];
  }

  /** Insertion sort of the whole array with the comparator. */
  method InsertionSortInPlace(a: array<Row>, cfg: SortConfig)
    modifies a
    ensures a[..] == InsertionSorted(old(a[..]), cfg)
  {
    ghost var input := a[..];
    var i := 0;
    while i < a.Length
      invariant 0 <= i <= a.Length
      invariant a[..i] == InsertionSorted(input[..i], cfg)
      invariant a[i..] == input[i..]
    {
      assert a[i] == input[i] by { assert a[i..][0] == input[i..][0]; }
      InsertLast(a, i, cfg);
      InsertionSortedPrefix(input, i, cfg);
      i := i + 1;
    }
    assert input[..a.Length] == input;
  }

  /**
   * `sortedData`: copy the rows into a fresh array and, when a sort is
   * configured, insertion-sort the copy with the comparator. The input is a
   * value and is left as it was.
   */
  method SortRows(rows: seq<Row>, cfg: Option<SortConfig>) returns (sorted: seq<Row>)
    ensures sorted == SortSpec(rows, cfg)
    ensures multiset(sorted) == multiset(rows)
    ensures cfg.None? ==> sorted == rows
    ensures cfg.Some? ==> MissingLast(sorted, cfg.value.key)
    ensures cfg.Some? && Homogeneous(rows, cfg.value.key) ==> OrderedBy(sorted, cfg.value)
  {
    var items := new Row[|rows|](k requires 0 <= k < |rows| => rows[k]);
    assert items[..] == rows;
    SortSpecPermutes(rows, cfg);
    if cfg.Some? {
      InsertionSortInPlace(items, cfg.value);
      SortedMissingLast(rows, cfg.value);
      if Homogeneous(rows, cfg.value.key) {
        SortedInOrder(rows, cfg.value);
      }
    }
    sorted := items[..];
  }

  // ---------------------------------------------------------------------------
  // The column-header toggle

  /**
   * `handleSort(key)` / `requestSort(key)`: descending when `key` is the current
   * key and the current direction is ascending, ascending in every other case.
   */
  function NextSortConfig(current: Option<SortConfig>, key: string): (r: SortConfig)
    ensures r.key == key
    ensures r.direction == Descending <==> current == Some(SortConfig(key, Ascending))
  {
    var direction := if current.Some? && current.value.key == key && current.value.direction == Ascending
                     then Descending else Ascending;
    SortConfig(key, direction)
  }

  /** Two requests on the same key in a row always end in opposite directions. */
  lemma SortToggleAlternates(current: Option<SortConfig>, key: string)
    ensures NextSortConfig(Some(NextSortConfig(current, key)), key).direction !=
            NextSortConfig(current, key).direction
  {
  }
}
